=== FILE: README.md ===
# Helpdesk orchestration core, modelled in Dafny

This project models the request-handling core of a chat backend that
answers questions from a document index and handles support-ticket
requests through a tool-calling chat.

- **Intent detection** (`IntentDetection`). The classifier copies the
  request messages behind a fixed system prompt. It asks a completion
  model, at temperature 0 and without streaming, for a JSON reply
  `{"intent": …}`. It returns one of `ANSWER_QUESTION`, `CREATE_TICKET` or
  `GET_TICKET_STATUS`. Any failure falls back to `ANSWER_QUESTION`.
- **Orchestration** (`Orchestrator`). The orchestrator classifies once.
  A ticket intent starts the `helpdesk_assistant` chat with automatic
  function choice. Every other intent delegates to the direct-answer
  path. Failures are re-raised.
- **Chat** (`Chat`).
  - The session is created with the `helix_proxy_plugin` capability and the
    `{{$chat_history}}{{$user_input}}` prompt.
  - `invoke` builds the history: one system message, then the user and
    assistant messages of the request with tool messages removed. The user
    input is the content of the last non-tool message.
  - The generator forwards only streaming assistant chunks that carry
    inner content, each tagged with the request's history metadata.
- **Search capability** (`SearchPlugin`, `AiSearch`).
  - The query is handed to the search service. It comes with a
    50-neighbour vector query on `text_vector`, which the service drops
    unless vector search is on (it is off by default).
  - Every hit of every page becomes a `Document`. Only documents meeting
    both score thresholds are returned; a missing score or threshold
    counts as 0.
  - The search service turns its flags into the call's arguments:
    search text, vector queries, and the semantic configuration and
    captions.
- **Settings** (`Settings`).
  - The OpenAI endpoint is kept when explicit, else derived as
    `https://<resource>.openai.azure.com`, else validation fails.
  - The search endpoint is always rebuilt as `https://<service>.<suffix>`.
  - Stop sequences are split only from a non-empty string, and penalties
    must lie in [-2, 2].
  - The chat-history settings become `None` when their own validation
    fails.

Shared pieces:

- `Wrappers` holds `Option`, `Result` and `Keyword`. `Keyword` is a
  keyword argument that is either omitted or passed.
- `Sequences` holds the order-preserving filter that the source's list
  comprehensions compute, with its lemmas.
- `Requests` holds the request body.

External collaborators become parameters of the model:

- the completion client, the search index (a function from the call to
  its pages) and `json.loads` are functions;
- the kernel's output stream is a sequence of items;
- the outcome of `Chat.create` and of the direct-answer function are
  values.

Each method that models a source function is proved equal to a
specification function:

- `BuildOutgoing` to `Outgoing`;
- `BuildHistory` to `History`;
- `Invoke` to `Invocation`;
- `Generate` to `Fragments`;
- `Search` to `SearchResult`;
- `GetUserIntent` to `Classify`.

The lemmas state the promised properties about those functions.

A chunk is forwarded when the provider's raw `inner_content` object is
truthy (backend/orchestration/chat.py:141-145). The model treats that object
as present or absent (`StreamItem.innerContent`); an object that is present
but falsy is not modelled.

## Model

| member | source | states |
|---|---|---|
| Requests.MessagesOf | backend/orchestration/chat.py:113 | `request_body.get("messages", [])`: fails exactly when the body is not a mapping; a present list is returned as it is, a missing key gives `[]` |
| Requests.HistoryMetadataOf | backend/orchestration/chat.py:138 | `request_body.get("history_metadata", {})`: fails exactly when the body is not a mapping; a present mapping is returned as it is, a missing key gives `{}` |
| Sequences.Filter | backend/orchestration/chat.py:115-117 | the comprehension keeps exactly the elements meeting the condition (each kept element is in the input and qualifies; each qualifying element is kept) and never grows the list |
| Sequences.FilterIsSubsequence | backend/orchestration/plugins/search_plugin.py:64-71 | a comprehension's result is an order-preserving subsequence of its input |
| IntentDetection.IntentFromValue | backend/orchestration/intent_detection.py:85 | `Intent(value)` succeeds exactly on the string of one of the three labels and returns that intent |
| IntentDetection.LabelInjective | backend/orchestration/intent_detection.py:7-10 | distinct intents have distinct labels |
| IntentDetection.Strip | backend/orchestration/intent_detection.py:82 | `str.strip()`: the result is no longer than the input, neither starts nor ends with whitespace, and is empty only for an all-whitespace input |
| IntentDetection.StripUnpads | backend/orchestration/intent_detection.py:82 | stripping removes exactly the whitespace padding around an unpadded text |
| IntentDetection.StripIdempotent | backend/orchestration/intent_detection.py:82 | stripping twice equals stripping once |
| IntentDetection.Converted | backend/orchestration/intent_detection.py:52-68 | a truthy message converts exactly when it has role and content and, for an assistant message with context, the context decodes; role and content are copied; context is kept only for assistant messages carrying one |
| IntentDetection.OutgoingFailurePersists | backend/orchestration/intent_detection.py:51-68 | once a message raises, the whole build raises |
| IntentDetection.OutgoingSucceeds | backend/orchestration/intent_detection.py:51-68 | the build succeeds exactly when every truthy message converts |
| IntentDetection.OutgoingContents | backend/orchestration/intent_detection.py:44-68 | a built list is the system entry followed by the conversion of each truthy message, in order, tool messages included |
| IntentDetection.BuildOutgoing | backend/orchestration/intent_detection.py:44-68 | the loop builds exactly `Outgoing` of the request messages |
| IntentDetection.ReplyIntent | backend/orchestration/intent_detection.py:81-85 | a reply yields an intent exactly when it has content whose stripped text decodes to an object whose `intent` is that intent's label |
| IntentDetection.ClassificationRequest | backend/orchestration/intent_detection.py:70-75 | the completion call sends the built messages with temperature 0.0, no streaming and the detector's model |
| IntentDetection.GetUserIntent | backend/orchestration/intent_detection.py:33-91 | the method returns exactly `Classify`: the label decoded from the stripped reply, or `ANSWER_QUESTION` on any failure |
| IntentDetection.MalformedMessageFallsBack | backend/orchestration/intent_detection.py:86-89 | one truthy message that cannot be converted forces `ANSWER_QUESTION` |
| IntentDetection.ExactLabelIsReturned | backend/orchestration/intent_detection.py:82-85 | a reply decoding to an object whose `intent` is a label yields that intent |
| IntentDetection.TicketIntentNeedsExactLabel | backend/orchestration/intent_detection.py:78-91 | conversely, any intent other than the fallback implies the build succeeded and the stripped reply decodes to an object carrying exactly that label |
| IntentDetection.ReplyPaddingIgnored | backend/orchestration/intent_detection.py:82 | whitespace around the model's reply never changes the classification |
| Chat.Create | backend/orchestration/chat.py:74-102 | the session uses the chat id as service id, registers `helix_proxy_plugin` and the `ChatBot`/`Chat` function with the `{{$chat_history}}{{$user_input}}` template |
| Chat.NonToolMessages | backend/orchestration/chat.py:115-117 | every kept message comes from the request and is not a tool message; every non-tool message is kept (a message without a role counts as non-tool) |
| Chat.Step | backend/orchestration/chat.py:120-124 | one message of the history loop: a falsy message is skipped; a truthy one without a role raises; a user or assistant message without content raises; a user or assistant message with content becomes an entry with the matching role and its content; any other role is skipped |
| Chat.History | backend/orchestration/chat.py:110-124 | a built history opens with the system message |
| Chat.HistoryErrorPersists | backend/orchestration/chat.py:119-124 | once a message raises in the history loop, the whole loop raises the same error |
| Chat.HistorySucceeds | backend/orchestration/chat.py:119-124 | the loop succeeds exactly when every truthy message has a role and every user or assistant message has content |
| Chat.HistoryContents | backend/orchestration/chat.py:110-124 | the history is the system message followed by the user and assistant messages, in order, each with its role and content |
| Chat.HistoryRoles | backend/orchestration/chat.py:119-124 | after the first entry every history entry is a user or assistant message |
| Chat.BuildHistory | backend/orchestration/chat.py:110-124 | the loop builds exactly `History` of the filtered messages |
| Chat.Invoke | backend/orchestration/chat.py:104-148 | `invoke` returns exactly `Invocation`: the generator over the built history and the last non-tool content, or the error raised on the way |
| Chat.InvocationExcludesTools | backend/orchestration/chat.py:115-124 | the history is the system message followed by exactly the user and assistant messages of the request, in order, each with its role and content; every request message with role `tool` is left out |
| Chat.UserInputIsLastNonTool | backend/orchestration/chat.py:126-130 | the user input is the content of the last non-tool message, and is also the last history entry when that message is a user or assistant message |
| Chat.InvocationSucceeds | backend/orchestration/chat.py:113-126 | `invoke` returns a generator exactly when the body is a mapping, no non-tool message makes the history loop raise (a truthy message lacks a role, or a user/assistant message lacks content), and the last non-tool message exists and has content, whatever its role |
| Chat.NoNonToolMessageFails | backend/orchestration/chat.py:126 | with no non-tool message, `invoke` raises instead of returning a generator |
| Chat.InvocationKeepsMetadata | backend/orchestration/chat.py:138 | the generator carries the request's `history_metadata` unchanged, or `{}` when it is absent |
| Chat.Fragments | backend/orchestration/chat.py:132-146 | one fragment per forwarded item, each carrying the request's metadata and no end-of-turn flag |
| Chat.Generate | backend/orchestration/chat.py:132-146 | the generator's loop yields exactly `Fragments` of the stream |
| Chat.FragmentChunks | backend/orchestration/chat.py:146 | the k-th fragment carries the inner content of the k-th forwarded item |
| Chat.SuppressedItemEmitsNothing | backend/orchestration/chat.py:141-145 | an item that is not a streaming assistant chunk with inner content yields nothing |
| Chat.FragmentsCarryRequestMetadata | backend/orchestration/chat.py:138-146 | every fragment emitted for a request carries that request's `history_metadata` unchanged, or `{}` |
| Chat.FragmentsInStreamOrder | backend/orchestration/chat.py:133-146 | the output of a stream is the output of its prefix followed by that of its suffix |
| AiSearch.NewAiSearchService | backend/search/aisearchservice.py:12-24 | the knowledge client targets the data source's endpoint and index; each keyword independently is its passed value or, when omitted, its default (top 5, text search on, vector search off, ranker off, captions on) |
| AiSearch.ServiceDefaults | backend/search/aisearchservice.py:20-24 | with no keywords: top 5, text search on, vector search off, semantic ranker off, captions on |
| AiSearch.SearchInternal | backend/search/aisearchservice.py:36-66 | search text is the query or `""`; vectors are the given ones or none; the semantic query type, `default` configuration and semantic query are sent exactly with the ranker; extractive captions only with ranker and captions flag |
| AiSearch.SearchKnowledge | backend/search/aisearchservice.py:27-33 | the call goes to the knowledge-index client with the service's `top` and the filter unchanged; the query becomes the search text with text search (else `""`) and the semantic query with the ranker; the vectors are sent only with vector search |
| AiSearch.TextFlagOnlyAffectsSearchText | backend/search/aisearchservice.py:44-57 | the text flag changes only the search text; the semantic query keeps the original query |
| AiSearch.VectorFlagOnlyAffectsVectors | backend/search/aisearchservice.py:45 | the vector flag changes only the vector queries |
| AiSearch.CaptionsNeedRanker | backend/search/aisearchservice.py:47-64 | without the ranker the captions flag has no effect |
| SearchPlugin.Lookup | backend/orchestration/plugins/search_plugin.py:55-60 | `dict.get`: the value under a present key, `None` for an absent one |
| SearchPlugin.Project | backend/orchestration/plugins/search_plugin.py:53-61 | each of the six document fields is present exactly when its key is in the hit, and then holds the hit's value under that key |
| SearchPlugin.Projected | backend/orchestration/plugins/search_plugin.py:51-62 | one document per hit, in hit order |
| SearchPlugin.NewPlugin | backend/orchestration/plugins/search_plugin.py:19-22 | an omitted threshold is 0.0; a passed one (even `None`) is kept |
| SearchPlugin.Qualifies | backend/orchestration/plugins/search_plugin.py:67-70 | with all scores and thresholds present a document qualifies exactly when both scores reach their thresholds; a document missing a score qualifies only if that threshold is absent or at most 0 |
| SearchPlugin.QualifiedDocuments | backend/orchestration/plugins/search_plugin.py:64-71 | the filter keeps exactly the qualifying documents: each kept one is an input document that qualifies, each qualifying input document is kept |
| SearchPlugin.SearchCallFor | backend/orchestration/plugins/search_plugin.py:47-48 | the query reaches the knowledge client unchanged: as search text with text search, as a 50-neighbour `text_vector` query with vector search, as semantic query with the ranker; with text search off the search text is `""`, with vector search off no vector is sent; no filter is sent, and `top` is the service's (5 by default) |
| SearchPlugin.Search | backend/orchestration/plugins/search_plugin.py:29-73 | the method returns exactly `SearchResult` of the pages the index returns for the plugin's call |
| SearchPlugin.SearchKeepsExactlyQualifying | backend/orchestration/plugins/search_plugin.py:64-71 | every returned document came from a hit and meets both thresholds; every hit whose document meets both is returned |
| SearchPlugin.SearchPreservesOrder | backend/orchestration/plugins/search_plugin.py:64-71 | the result is an order-preserving subsequence of all hits of all pages |
| SearchPlugin.RaisingThresholdsNeverAdds | backend/orchestration/plugins/search_plugin.py:67-70 | raising either threshold yields a subsequence of the looser result |
| SearchPlugin.MissingValuesCountAsZero | backend/orchestration/plugins/search_plugin.py:68-69 | a missing score or threshold behaves exactly like 0 |
| SearchPlugin.DefaultThresholdsKeepUnscored | backend/orchestration/plugins/search_plugin.py:21-22 | with default thresholds a document without scores is kept |
| SearchPlugin.NoPagesRaises | backend/orchestration/plugins/search_plugin.py:50-73 | with no page the filtered list is never bound, so `search` raises |
| Orchestrator.PathFor | backend/orchestration/orchestrator.py:66-74 | the ticket chat is chosen exactly for the two ticket intents |
| Orchestrator.StartTicketChat | backend/orchestration/orchestrator.py:67-72 | a failing `Chat.create` is re-raised; otherwise the result is exactly the generator `invoke` builds for this request, on the chat created as `helpdesk_assistant` with automatic function choice, or exactly the error `invoke` raised |
| Orchestrator.TicketStreamCarriesRequestMetadata | backend/orchestration/orchestrator.py:66-72 | when `run` returns the ticket chat's stream, every fragment it emits carries the request's `history_metadata` unchanged, or `{}` |
| Orchestrator.StartDirectAnswer | backend/orchestration/orchestrator.py:73-74 | the direct-answer stream is returned exactly when the function returns one, and its error is re-raised otherwise |
| Orchestrator.Dispatch | backend/orchestration/orchestrator.py:64-74 | the classifier runs once on the messages, and the path started, and the outcome, are those chosen by the intent |
| Orchestrator.RunAsWritten | backend/orchestration/orchestrator.py:62-77 | when the body is not a mapping, the handler's own unbound-name error is what leaves `run` |
| Orchestrator.Run | backend/orchestration/orchestrator.py:62-77 | for a mapping body the classifier runs once on `messages` (default `[]`) and exactly the path chosen by the intent starts; otherwise the original error is re-raised |
| Orchestrator.TicketIntentStartsChat | backend/orchestration/orchestrator.py:66-72 | a ticket intent starts the `helpdesk_assistant` chat with automatic function choice and the ticket system message first in its history; its errors are re-raised unchanged |
| Orchestrator.OtherIntentDelegates | backend/orchestration/orchestrator.py:73-74 | any other intent returns the direct-answer stream or re-raises its error unchanged |
| Orchestrator.ClassifierFailureDelegates | backend/orchestration/orchestrator.py:64-74 | a failed classification routes to the direct-answer path |
| Orchestrator.HandlerReplacesOriginalError | backend/orchestration/orchestrator.py:75-77 | the handler as written agrees with the intended one on mapping bodies and replaces the original error otherwise |
| Settings.SplitContexts | backend/settings.py:83-89 | only a non-empty string is split, by the column parser; anything else becomes `None` |
| Settings.ResourceOf | backend/settings.py:97 | a resource read back from an endpoint rebuilds that endpoint |
| Settings.ResourceEndpointRoundTrip | backend/settings.py:97 | the resource is recovered from the endpoint derived from it |
| Settings.EnsuredEndpoint | backend/settings.py:91-100 | an explicit endpoint is kept; otherwise it is derived from the resource; validation fails exactly when neither is set |
| Settings.EnsuredEndpointNamesResource | backend/settings.py:91-100 | a validated endpoint is non-empty and a derived one names the configured resource |
| Settings.Penalty | backend/settings.py:78-79 | a penalty is 0.0 when unset, accepted exactly within [-2.0, 2.0], and otherwise a validation failure |
| Settings.AzureOpenAISettings.EnsureEndpoint | backend/settings.py:91-100 | the validator succeeds exactly when `EnsuredEndpoint` does and then sets the endpoint to it, leaving it unchanged otherwise; the penalty-range invariant is kept |
| Settings.LoadOpenAISettings | backend/settings.py:61-100 | construction succeeds exactly when the model is set, both penalties validate and an endpoint can be ensured; model, resource, endpoint, stop sequence and penalties hold the validated values |
| Settings.SplitSearchEndpoint | backend/settings.py:126 | a split endpoint rebuilds the URL from a dot-free service and a suffix |
| Settings.SearchEndpointRoundTrip | backend/settings.py:126 | a dot-free service and its suffix are recovered from the search endpoint |
| Settings.WithDefault | backend/settings.py:111-119 | an unset field takes its default, a parsed one its value, an unparseable one fails |
| Settings.AzureSearchSettings.SetEndpoint | backend/settings.py:124-127 | the endpoint becomes `https://<service>.<suffix>`, whatever was configured |
| Settings.LoadSearchSettings | backend/settings.py:103-127 | construction succeeds exactly when service, index and template index are set and every flag parses; service, index and template index are copied; defaults are top 5, text and vector search on, semantic search and captions off, suffix `search.windows.net`; the endpoint is rebuilt |
| Settings.LoadChatHistory | backend/settings.py:47-59 | construction succeeds exactly when database, account and container are set and the feedback flag parses; fields are copied, feedback defaults to off |
| Settings.AppSettings.SetChatHistorySettings | backend/settings.py:151-159 | the chat-history settings become the constructed value or `None` on validation failure, never an error |

## Left out

- Model calls, the search service's SDK and the semantic kernel are not
  modelled; they appear only as functions and sequences supplied by the
  caller. This covers the completion client, `json.loads`, the paged
  search results and the kernel's stream.
- `async`/`await`, cancellation and the laziness of generators are not
  modelled. A generator is modelled by the list of what it yields.
- Credentials and token providers (`DefaultAzureCredential`) are not
  modelled, and neither is closing the search client (`dispose`).
- The ticket tools behind `helix_proxy_plugin` are not modelled. They are
  a stub returning a constant, and the model only records the plugin's
  registration name.
- Prompt texts are opaque constants. This covers the classifier's system
  instructions and the ticket-flow system message; the model relies on
  nothing in their wording.
- `parse_multi_columns` and `format_stream_response` are not part of
  this model. The first is a function parameter; the second is modelled
  by the fragment record it is given.
- Pydantic's environment loading is not modelled: variable prefixes, the
  `.env` file, case-insensitive names, and `env_ignore_empty` (which turns
  an empty variable into an unset one).
  - The inputs are already split into unset, parsed and unparseable values.
  - Only the fields that have a validation rule or a default used by the
    core are modelled.
  - The UI settings and the base settings are not modelled.
- Settings.LoadOpenAISettings: the validator raises
  `ValidationError(...)` with a string argument, which Pydantic's
  constructor may itself reject with a different exception. The model
  records only that construction fails.
- The search-service flags of the settings are not connected to
  `AiSearchService`. The service takes its flags from keyword arguments
  with its own defaults (vector search off, captions on), not from the
  settings.
- Floating-point behaviour is not modelled: scores, thresholds and
  penalties are exact reals.
- Inputs of unexpected Python types are not modelled:
  - a request message that is not a dictionary, or whose values are not
    strings;
  - a hit value of an unexpected type;
  - a kernel stream item that is an empty list.

  Messages are string-to-string maps and stream items are records.
- Logging is not modelled: the `logging` calls have no effect on the
  model, except that the handler's log line in `run` reads `intent`.

## Findings

| source | as written | input that shows it | evidently intended | confidence | as-written member | corrected member |
|---|---|---|---|---|---|---|
| backend/orchestration/orchestrator.py:76 | the `except` handler's log line reads `intent`, which is bound only after line 64 | a `request_body` without a `get` method, so line 63 raises before `intent` is assigned; the log line then raises an unbound-name error that replaces the original one | re-raise the original exception unchanged | high, not executed | Orchestrator.RunAsWritten | Orchestrator.Run |

=== FILE: aisearchservice.dfy ===
/** The search service: its configuration flags, set once at construction,
    and the mapping from those flags and a query to the arguments of the
    search-client call. */
module AiSearch {
  import opened Wrappers

  /** A vector query; the search capability sends text to be vectorised. */
  datatype VectorQuery = VectorizableTextQuery(text: string, kNearestNeighbors: int, fields: string)

  /** The query types and caption types the service may request. */
  datatype QueryType = Semantic
  datatype QueryCaptionType = Extractive

  /** A search client bound to one endpoint and index. */
  datatype SearchClient = SearchClient(endpoint: Option<string>, indexName: string)

  /** An `AiSearchService` once constructed; no field changes afterwards. */
  datatype AiSearchService = AiSearchService(
    knowledgeSearchClient: SearchClient,
    top: int,
    useTextSearch: bool,
    useVectorSearch: bool,
    useSemanticRanker: bool,
    useSemanticCaptions: bool)

  /** The keyword arguments of the constructor. */
  datatype ServiceKeywords = ServiceKeywords(
    top: Keyword<int>,
    useTextSearch: Keyword<bool>,
    useVectorSearch: Keyword<bool>,
    useSemanticRanker: Keyword<bool>,
    useSemanticCaptions: Keyword<bool>)

  /** No keyword argument given. */
  const NoKeywords := ServiceKeywords(Omitted, Omitted, Omitted, Omitted, Omitted)

  /** `AiSearchService.__init__`: the knowledge client targets the data source's
      endpoint and index; each flag is the keyword given, or its default. */
  function NewAiSearchService(datasourceEndpoint: Option<string>, datasourceIndex: string,
                              kwargs: ServiceKeywords): (s: AiSearchService)
    ensures s.knowledgeSearchClient == SearchClient(datasourceEndpoint, datasourceIndex)
    ensures kwargs.top.Passed? ==> s.top == kwargs.top.value
    ensures kwargs.useTextSearch.Passed? ==> s.useTextSearch == kwargs.useTextSearch.value
    ensures kwargs.useVectorSearch.Passed? ==> s.useVectorSearch == kwargs.useVectorSearch.value
    ensures kwargs.useSemanticRanker.Passed? ==> s.useSemanticRanker == kwargs.useSemanticRanker.value
    ensures kwargs.useSemanticCaptions.Passed? ==> s.useSemanticCaptions == kwargs.useSemanticCaptions.value
    ensures kwargs.top.Omitted? ==> s.top == 5
    ensures kwargs.useTextSearch.Omitted? ==> s.useTextSearch
    ensures kwargs.useVectorSearch.Omitted? ==> !s.useVectorSearch
    ensures kwargs.useSemanticRanker.Omitted? ==> !s.useSemanticRanker
    ensures kwargs.useSemanticCaptions.Omitted? ==> s.useSemanticCaptions
  {
    AiSearchService(
      SearchClient(datasourceEndpoint, datasourceIndex),
      kwargs.top.Get(5),
      kwargs.useTextSearch.Get(true),
      kwargs.useVectorSearch.Get(false),
      kwargs.useSemanticRanker.Get(false),
      kwargs.useSemanticCaptions.Get(true))
  }

  /** With no keyword arguments: top 5, text search on, vector search off,
      semantic ranker off, captions on. */
  lemma ServiceDefaults(datasourceEndpoint: Option<string>, datasourceIndex: string)
    ensures var s := NewAiSearchService(datasourceEndpoint, datasourceIndex, NoKeywords);
            s.top == 5 && s.useTextSearch && !s.useVectorSearch &&
            !s.useSemanticRanker && s.useSemanticCaptions
  {
  }

  /** The keyword arguments of one `search_client.search` call; `None` stands
      for an argument that is not sent (or sent as `None`). */
  datatype SearchArgs = SearchArgs(
    searchText: Option<string>,
    filter: Option<string>,
    top: int,
    vectorQueries: seq<VectorQuery>,
    queryCaption: Option<QueryCaptionType>,
    queryType: Option<QueryType>,
    semanticConfigurationName: Option<string>,
    semanticQuery: Option<string>)

  /** One search call: the client it goes to and its arguments. */
  datatype SearchCall = SearchCall(client: SearchClient, args: SearchArgs)

  /** `__search_internal`: the arguments chosen from the service's flags. */
  function SearchInternal(service: AiSearchService, client: SearchClient, queryText: Option<string>,
                          filter: Option<string>, vectors: seq<VectorQuery>): (call: SearchCall)
    ensures call.client == client
    ensures call.args.top == service.top && call.args.filter == filter
    ensures call.args.searchText == if service.useTextSearch then queryText else Some("")
    ensures call.args.vectorQueries == if service.useVectorSearch then vectors else []
    ensures call.args.queryType.Some? <==> service.useSemanticRanker
    ensures call.args.semanticConfigurationName.Some? <==> service.useSemanticRanker
    ensures service.useSemanticRanker ==>
              call.args.semanticConfigurationName == Some("default") && call.args.semanticQuery == queryText
    ensures !service.useSemanticRanker ==> call.args.semanticQuery.None?
    ensures call.args.queryCaption.Some? <==> service.useSemanticRanker && service.useSemanticCaptions
  {
    var searchText := if service.useTextSearch then queryText else Some("");
    var searchVectors := if service.useVectorSearch then vectors else [];
    if service.useSemanticRanker then
      SearchCall(client, SearchArgs(
        searchText, filter, service.top, searchVectors,
        if service.useSemanticCaptions then Some(Extractive) else None,
        Some(Semantic), Some("default"), queryText))
    else
      SearchCall(client, SearchArgs(searchText, filter, service.top, searchVectors, None, None, None, None))
  }

  /** `search_knowledge`: always the knowledge-index client. */
  function SearchKnowledge(service: AiSearchService, queryText: Option<string>, filter: Option<string>,
                           vectors: seq<VectorQuery>): (call: SearchCall)
    ensures call.client == service.knowledgeSearchClient
    ensures call.args.top == service.top && call.args.filter == filter
    ensures call.args.searchText == if service.useTextSearch then queryText else Some("")
    ensures call.args.vectorQueries == if service.useVectorSearch then vectors else []
    ensures call.args.semanticQuery == if service.useSemanticRanker then queryText else None
  {
    SearchInternal(service, service.knowledgeSearchClient, queryText, filter, vectors)
  }

  /** The text-search flag changes the search text and nothing else: in
      particular the semantic ranker still receives the original query when
      text search is off. */
  lemma TextFlagOnlyAffectsSearchText(service: AiSearchService, client: SearchClient, queryText: Option<string>,
                                      filter: Option<string>, vectors: seq<VectorQuery>)
    ensures var on := SearchInternal(service.(useTextSearch := true), client, queryText, filter, vectors);
            var off := SearchInternal(service.(useTextSearch := false), client, queryText, filter, vectors);
            on.args.(searchText := Some("")) == off.args && on.args.searchText == queryText
  {
  }

  /** The vector-search flag changes the vector queries and nothing else. */
  lemma VectorFlagOnlyAffectsVectors(service: AiSearchService, client: SearchClient, queryText: Option<string>,
                                     filter: Option<string>, vectors: seq<VectorQuery>)
    ensures var on := SearchInternal(service.(useVectorSearch := true), client, queryText, filter, vectors);
            var off := SearchInternal(service.(useVectorSearch := false), client, queryText, filter, vectors);
            on.args.(vectorQueries := []) == off.args && on.args.vectorQueries == vectors
  {
  }

  /** Without the semantic ranker the captions flag has no effect at all. */
  lemma CaptionsNeedRanker(service: AiSearchService, client: SearchClient, queryText: Option<string>,
                           filter: Option<string>, vectors: seq<VectorQuery>)
    requires !service.useSemanticRanker
    ensures SearchInternal(service.(useSemanticCaptions := true), client, queryText, filter, vectors)
         == SearchInternal(service.(useSemanticCaptions := false), client, queryText, filter, vectors)
  {
  }
}

=== FILE: chat.dfy ===
/** The tool-calling chat session: `Chat.create` and `Chat.invoke`, which
    rebuilds the conversation history from the request, picks the user input,
    and returns a lazy generator that forwards only assistant chunks. */
module Chat {
  import opened Wrappers
  import opened Sequences
  import opened Requests

  /** The kernel's author roles. */
  datatype AuthorRole = SystemRole | UserRole | AssistantRole | ToolRole

  /** One entry of the kernel's `ChatHistory`. */
  datatype ChatMessage = ChatMessage(role: AuthorRole, content: string)

  /** The kernel's function-choice behaviours. */
  datatype FunctionChoiceBehavior = Auto | Required | NoneInvoke

  /** Prompt execution settings; only the function-choice behaviour is modelled. */
  datatype ExecutionSettings = ExecutionSettings(functionChoiceBehavior: Option<FunctionChoiceBehavior>)

  /** What `Chat.create` builds: a kernel whose chat service carries `serviceId`,
      with the plugins registered under `pluginNames`, and the prompt function
      `ChatBot.Chat` over the template `{{$chat_history}}{{$user_input}}`. */
  datatype ChatSession = ChatSession(serviceId: string, pluginNames: seq<string>,
                                     functionPlugin: string, functionName: string, template: string)

  /** `Chat.create(chat_id)`. */
  function Create(chatId: string): (c: ChatSession)
    ensures c.serviceId == chatId
    ensures c.pluginNames == ["helix_proxy_plugin"]
    ensures c.functionPlugin == "ChatBot" && c.functionName == "Chat"
    ensures c.template == "{{$chat_history}}{{$user_input}}"
  {
    ChatSession(chatId, ["helix_proxy_plugin"], "ChatBot", "Chat", "{{$chat_history}}{{$user_input}}")
  }

  /** The arguments the prompt function is invoked with. */
  datatype KernelArguments = KernelArguments(settings: ExecutionSettings, userInput: string, chatHistory: seq<ChatMessage>)

  /** The generator `invoke` returns, before anything is read from it: the
      session, the arguments of the streaming call, and the request's
      `history_metadata` (defaulting to `{}`). */
  datatype Generator = Generator(session: ChatSession, arguments: KernelArguments, historyMetadata: Metadata)

  /** Why `invoke` raises before returning its generator. */
  datatype ChatError =
    | BodyNotAMapping   // `request_body.get` does not exist
    | MissingRole       // KeyError 'role' on a truthy message
    | MissingContent    // KeyError 'content'
    | NoUserInput       // IndexError on `filtered_messages[-1]`

  // ---------------------------------------------------------------------------
  // Tool filter and history reconstruction
  // ---------------------------------------------------------------------------

  /** `message.get("role") != "tool"`: a message without a role is kept. */
  predicate IsNotTool(m: Message) {
    !("role" in m && m["role"] == "tool")
  }

  /** The request messages without the tool messages, in order. */
  function NonToolMessages(msgs: seq<Message>): (r: seq<Message>)
    ensures forall k :: 0 <= k < |r| ==> r[k] in msgs && IsNotTool(r[k])
    ensures forall k :: 0 <= k < |msgs| && IsNotTool(msgs[k]) ==> msgs[k] in r
  {
    Filter(msgs, IsNotTool)
  }

  /** A truthy message whose role is `assistant` or `user`: one that enters the history. */
  predicate IsConversational(m: Message) {
    Truthy(m) && "role" in m && (m["role"] == "assistant" || m["role"] == "user")
  }

  /** The kernel role for a conversational message's role text. */
  function HistoryRole(role: string): AuthorRole {
    if role == "assistant" then AssistantRole else UserRole
  }

  /** What the history loop does with one message: raise, drop it (`None`), or
      append an entry. */
  function Step(m: Message): (r: Result<Option<ChatMessage>, ChatError>)
    ensures r.Err? <==> Truthy(m) && ("role" !in m || (IsConversational(m) && "content" !in m))
    ensures r.Err? ==> r.error == (if "role" !in m then MissingRole else MissingContent)
    ensures (r.Ok? && r.value.Some?) <==> IsConversational(m) && "content" in m
    ensures r.Ok? && r.value.Some? ==>
              r.value.value.content == m["content"] &&
              (r.value.value.role == AssistantRole <==> m["role"] == "assistant") &&
              (r.value.value.role == UserRole <==> m["role"] == "user")
  {
    if !Truthy(m) then Ok(None)
    else if "role" !in m then Err(MissingRole)
    else if m["role"] == "assistant" || m["role"] == "user" then
      if "content" !in m then Err(MissingContent)
      else Ok(Some(ChatMessage(HistoryRole(m["role"]), m["content"])))
    else Ok(None)
  }

  /** The history built from `filtered`, or the error of the first message on
      which the loop raises. */
  function History(systemMessage: string, filtered: seq<Message>): (r: Result<seq<ChatMessage>, ChatError>)
    ensures r.Ok? ==> |r.value| >= 1 && r.value[0] == ChatMessage(SystemRole, systemMessage)
    decreases |filtered|
  {
    if filtered == [] then Ok([ChatMessage(SystemRole, systemMessage)])
    else
      match History(systemMessage, filtered[..|filtered| - 1])
      case Err(e) => Err(e)
      case Ok(prefix) =>
        match Step(filtered[|filtered| - 1])
        case Err(e) => Err(e)
        case Ok(None) => Ok(prefix)
        case Ok(Some(entry)) => Ok(prefix + [entry])
  }

  /** Once a prefix raises, the whole loop raises with the same error. */
  lemma {:induction false} HistoryErrorPersists(systemMessage: string, filtered: seq<Message>, n: nat)
    requires n <= |filtered|
    requires History(systemMessage, filtered[..n]).Err?
    ensures History(systemMessage, filtered) == History(systemMessage, filtered[..n])
    decreases |filtered| - n
  {
    if n < |filtered| {
      assert filtered[..n + 1][..n] == filtered[..n];
      HistoryErrorPersists(systemMessage, filtered, n + 1);
    } else {
      assert filtered[..n] == filtered;
    }
  }

  /** The loop succeeds exactly when every truthy message has a role and every
      assistant or user message has content. */
  lemma {:induction false} HistorySucceeds(systemMessage: string, filtered: seq<Message>)
    ensures History(systemMessage, filtered).Ok? <==>
      forall k :: 0 <= k < |filtered| ==>
        (Truthy(filtered[k]) ==> "role" in filtered[k]) &&
        (IsConversational(filtered[k]) ==> "content" in filtered[k])
    decreases |filtered|
  {
    if filtered != [] {
      var init := filtered[..|filtered| - 1];
      HistorySucceeds(systemMessage, init);
      assert forall k :: 0 <= k < |init| ==> init[k] == filtered[k];
    }
  }

  /** A built history is exactly one system message carrying `systemMessage`,
      followed by the conversational messages of `filtered` in their original
      order, each with its role and content; nothing else enters it. */
  lemma {:induction false} HistoryContents(systemMessage: string, filtered: seq<Message>)
    requires History(systemMessage, filtered).Ok?
    ensures var h := History(systemMessage, filtered).value;
            var kept := Filter(filtered, IsConversational);
            |h| == 1 + |kept| && h[0] == ChatMessage(SystemRole, systemMessage) &&
            forall k :: 0 <= k < |kept| ==>
              "content" in kept[k] &&
              h[k + 1] == ChatMessage(HistoryRole(kept[k]["role"]), kept[k]["content"])
    decreases |filtered|
  {
    if filtered != [] {
      var init := filtered[..|filtered| - 1];
      var m := filtered[|filtered| - 1];
      assert filtered == init + [m];
      FilterSnoc(init, m, IsConversational);
      HistoryContents(systemMessage, init);
    }
  }

  /** After the opening system message, every history entry is a user or an
      assistant message: no tool message and no second system message. */
  lemma HistoryRoles(systemMessage: string, filtered: seq<Message>)
    requires History(systemMessage, filtered).Ok?
    ensures var h := History(systemMessage, filtered).value;
            forall k :: 1 <= k < |h| ==> h[k].role == UserRole || h[k].role == AssistantRole
  {
    HistoryContents(systemMessage, filtered);
    var h := History(systemMessage, filtered).value;
    var kept := Filter(filtered, IsConversational);
    forall k | 1 <= k < |h| ensures h[k].role == UserRole || h[k].role == AssistantRole {
      assert h[(k - 1) + 1] == ChatMessage(HistoryRole(kept[k - 1]["role"]), kept[k - 1]["content"]);
    }
  }

  /** The history loop of `invoke`: start from the system message and append
      the assistant and user messages one by one. */
  method BuildHistory(systemMessage: string, filteredMessages: seq<Message>)
    returns (history: Result<seq<ChatMessage>, ChatError>)
    ensures history == History(systemMessage, filteredMessages)
  {
    var entries := [ChatMessage(SystemRole, systemMessage)];
    var i := 0;
    while i < |filteredMessages|
      invariant 0 <= i <= |filteredMessages|
      invariant History(systemMessage, filteredMessages[..i]) == Ok(entries)
    {
      var message := filteredMessages[i];
      assert filteredMessages[..i + 1][..i] == filteredMessages[..i];
      if Truthy(message) {
        if "role" !in message {
          HistoryErrorPersists(systemMessage, filteredMessages, i + 1);
          return Err(MissingRole);
        }
        if message["role"] == "assistant" || message["role"] == "user" {
          if "content" !in message {
            HistoryErrorPersists(systemMessage, filteredMessages, i + 1);
            return Err(MissingContent);
          }
          var role := if message["role"] == "assistant" then AssistantRole else UserRole;
          entries := entries + [ChatMessage(role, message["content"])];
        }
      }
      i := i + 1;
    }
    assert filteredMessages[..i] == filteredMessages;
    history := Ok(entries);
  }

  // ---------------------------------------------------------------------------
  // invoke
  // ---------------------------------------------------------------------------

  /** What `invoke` returns (its generator) or raises, for a request. */
  function Invocation(session: ChatSession, settings: ExecutionSettings, request: RequestBody,
                      systemMessage: string): Result<Generator, ChatError>
  {
    match request
    case NotAMapping => Err(BodyNotAMapping)
    case Body(_, _) =>
      var filtered := NonToolMessages(MessagesOf(request).value);
      match History(systemMessage, filtered)
      case Err(e) => Err(e)
      case Ok(history) =>
        if filtered == [] then Err(NoUserInput)
        else if "content" !in Last(filtered) then Err(MissingContent)
        else Ok(Generator(session, KernelArguments(settings, Last(filtered)["content"], history),
                          HistoryMetadataOf(request).value))
  }

  /** `Chat.invoke`: build the history, choose the user input, and hand back the
      (not yet started) generator. */
  method Invoke(session: ChatSession, settings: ExecutionSettings, requestBody: RequestBody,
                systemMessage: string) returns (r: Result<Generator, ChatError>)
    ensures r == Invocation(session, settings, requestBody, systemMessage)
  {
    if requestBody.NotAMapping? {
      return Err(BodyNotAMapping);
    }
    var requestMessages := requestBody.messages.GetOr([]);
    var filteredMessages := NonToolMessages(requestMessages);
    var history := BuildHistory(systemMessage, filteredMessages);
    if history.Err? {
      return Err(history.error);
    }
    if filteredMessages == [] {
      return Err(NoUserInput);
    }
    var last := filteredMessages[|filteredMessages| - 1];
    if "content" !in last {
      return Err(MissingContent);
    }
    var arguments := KernelArguments(settings, last["content"], history.value);
    r := Ok(Generator(session, arguments, requestBody.historyMetadata.GetOr(map[])));
  }

  /** The history handed to the model is the system message followed by exactly
      the user and assistant messages of the request, in their order: every
      request message whose role is `tool` (or any other role) is left out. */
  lemma InvocationExcludesTools(session: ChatSession, settings: ExecutionSettings, request: RequestBody,
                                systemMessage: string)
    requires Invocation(session, settings, request, systemMessage).Ok?
    ensures request.Body?
    ensures var h := Invocation(session, settings, request, systemMessage).value.arguments.chatHistory;
            var conversational := Filter(request.messages.GetOr([]), IsConversational);
            |h| == 1 + |conversational| && h[0] == ChatMessage(SystemRole, systemMessage) &&
            forall k :: 0 <= k < |conversational| ==>
              "content" in conversational[k] &&
              h[k + 1] == ChatMessage(HistoryRole(conversational[k]["role"]), conversational[k]["content"])
  {
    var msgs := request.messages.GetOr([]);
    FilterAbsorbs(msgs, IsConversational, IsNotTool);
    HistoryContents(systemMessage, NonToolMessages(msgs));
  }

  /** The user input is the content of the last non-tool message, whatever its
      role; when that message is an assistant or user message it is also the
      last entry of the history. */
  lemma {:induction false} UserInputIsLastNonTool(session: ChatSession, settings: ExecutionSettings,
                                                  request: RequestBody, systemMessage: string)
    requires Invocation(session, settings, request, systemMessage).Ok?
    ensures var filtered := NonToolMessages(request.messages.GetOr([]));
            var args := Invocation(session, settings, request, systemMessage).value.arguments;
            filtered != [] && "content" in Last(filtered) &&
            args.userInput == Last(filtered)["content"] &&
            (IsConversational(Last(filtered)) ==>
               Last(args.chatHistory) == ChatMessage(HistoryRole(Last(filtered)["role"]), args.userInput))
  {
    var filtered := NonToolMessages(request.messages.GetOr([]));
    var init := filtered[..|filtered| - 1];
    var m := Last(filtered);
    assert filtered == init + [m];
    assert init == filtered[..|filtered| - 1];
  }

  /** `invoke` returns a generator exactly when the body is a mapping, the
      history loop does not raise on any non-tool message, and there is a last
      non-tool message and it has content. Its role is not checked: a last
      message of any other role still supplies the user input. */
  lemma InvocationSucceeds(session: ChatSession, settings: ExecutionSettings, request: RequestBody,
                           systemMessage: string)
    ensures Invocation(session, settings, request, systemMessage).Ok? <==>
              request.Body? &&
              var filtered := NonToolMessages(request.messages.GetOr([]));
              filtered != [] && "content" in Last(filtered) &&
              forall k :: 0 <= k < |filtered| ==>
                (Truthy(filtered[k]) ==> "role" in filtered[k]) &&
                (IsConversational(filtered[k]) ==> "content" in filtered[k])
  {
    if request.Body? {
      HistorySucceeds(systemMessage, NonToolMessages(request.messages.GetOr([])));
    }
  }

  /** A request with no non-tool message fails before any model call: `invoke`
      raises instead of returning a generator. */
  lemma NoNonToolMessageFails(session: ChatSession, settings: ExecutionSettings, request: RequestBody,
                              systemMessage: string)
    requires request.Body? && NonToolMessages(request.messages.GetOr([])) == []
    ensures Invocation(session, settings, request, systemMessage) == Err(NoUserInput)
  {
  }

  /** Every successful invocation carries the request's metadata (or `{}`). */
  lemma InvocationKeepsMetadata(session: ChatSession, settings: ExecutionSettings, request: RequestBody,
                                systemMessage: string)
    requires Invocation(session, settings, request, systemMessage).Ok?
    ensures request.Body?
    ensures Invocation(session, settings, request, systemMessage).value.historyMetadata
            == request.historyMetadata.GetOr(map[])
  {
  }

  // ---------------------------------------------------------------------------
  // generate: the chunk filter
  // ---------------------------------------------------------------------------

  /** The provider's raw chunk object, passed to the response formatter as it is. */
  type RawChunk = string

  /** The first element of one item of the kernel's stream: whether it is a
      streaming chat message, its author role, and its raw inner content (the
      provider's chunk object, `None` when absent). */
  datatype StreamItem = StreamItem(isStreamingChatMessage: bool, role: AuthorRole, innerContent: Option<RawChunk>)

  /** The arguments of one `format_stream_response` call; the formatter itself is
      not part of this model. */
  datatype Fragment = Fragment(chunk: RawChunk, historyMetadata: Metadata, endTurn: Option<bool>)

  /** A stream item that `generate` forwards. */
  predicate IsForwarded(item: StreamItem) {
    item.isStreamingChatMessage && item.role == AssistantRole && item.innerContent.Some?
  }

  /** The fragments `generate` emits for a stream: one per forwarded item, in
      stream order, each carrying the generator's metadata unchanged and no
      end-of-turn marker. */
  function Fragments(generator: Generator, stream: seq<StreamItem>): (r: seq<Fragment>)
    ensures |r| == |Filter(stream, IsForwarded)|
    ensures forall k :: 0 <= k < |r| ==>
              r[k].historyMetadata == generator.historyMetadata && r[k].endTurn.None?
  {
    var forwarded := Filter(stream, IsForwarded);
    seq(|forwarded|, k requires 0 <= k < |forwarded| =>
      Fragment(forwarded[k].innerContent.value, generator.historyMetadata, None))
  }

  /** `generate`: iterate the model stream and emit a fragment for each
      forwarded item. */
  method Generate(generator: Generator, stream: seq<StreamItem>) returns (fragments: seq<Fragment>)
    ensures fragments == Fragments(generator, stream)
  {
    fragments := [];
    var i := 0;
    while i < |stream|
      invariant 0 <= i <= |stream|
      invariant var forwarded := Filter(stream[..i], IsForwarded);
                |fragments| == |forwarded| &&
                forall k :: 0 <= k < |fragments| ==>
                  fragments[k] == Fragment(forwarded[k].innerContent.value, generator.historyMetadata, None)
    {
      var historyMetadata := generator.historyMetadata;
      var msg := stream[i];
      assert stream[..i + 1] == stream[..i] + [msg];
      FilterSnoc(stream[..i], msg, IsForwarded);
      if msg.isStreamingChatMessage && msg.role == AssistantRole && msg.innerContent.Some? {
        fragments := fragments + [Fragment(msg.innerContent.value, historyMetadata, None)];
      }
      i := i + 1;
    }
    assert stream[..i] == stream;
  }

  /** Each fragment carries the raw chunk of the forwarded item at the same
      position: an assistant streaming message with inner content. */
  lemma FragmentChunks(generator: Generator, stream: seq<StreamItem>, k: nat)
    requires k < |Fragments(generator, stream)|
    ensures var item := Filter(stream, IsForwarded)[k];
            item in stream && item.isStreamingChatMessage && item.role == AssistantRole &&
            item.innerContent == Some(Fragments(generator, stream)[k].chunk)
  {
  }

  /** An item that is not forwarded (not a streaming chat message, not from the
      assistant, or without inner content) emits nothing: appending it to the
      stream leaves the fragments unchanged. */
  lemma SuppressedItemEmitsNothing(generator: Generator, stream: seq<StreamItem>, item: StreamItem)
    requires !IsForwarded(item)
    ensures Fragments(generator, stream + [item]) == Fragments(generator, stream)
  {
    FilterSnoc(stream, item, IsForwarded);
  }

  /** Every fragment emitted for a request carries that request's
      `history_metadata` unchanged, or `{}` when the request has none. */
  lemma FragmentsCarryRequestMetadata(session: ChatSession, settings: ExecutionSettings, request: RequestBody,
                                      systemMessage: string, stream: seq<StreamItem>)
    requires Invocation(session, settings, request, systemMessage).Ok?
    ensures request.Body?
    ensures var fragments := Fragments(Invocation(session, settings, request, systemMessage).value, stream);
            forall k :: 0 <= k < |fragments| ==> fragments[k].historyMetadata == request.historyMetadata.GetOr(map[])
  {
  }

  /** The fragments of two consecutive stretches of the stream are emitted in
      stream order: those of the first, then those of the second. */
  lemma FragmentsInStreamOrder(generator: Generator, a: seq<StreamItem>, b: seq<StreamItem>)
    ensures Fragments(generator, a + b) == Fragments(generator, a) + Fragments(generator, b)
  {
    FilterConcat(a, b, IsForwarded);
  }
}

=== FILE: intent_detection.dfy ===
/** The single-shot intent classifier: it builds the outgoing message list from
    the request, asks the language model once, and maps the JSON reply onto the
    closed three-value intent enumeration, falling back to ANSWER_QUESTION on
    any failure. */
module IntentDetection {
  import opened Wrappers
  import opened Sequences
  import opened Requests

  /** The closed set of intents. */
  datatype Intent = AnswerQuestion | CreateTicket | GetTicketStatus

  /** The string value of each enum member. */
  function Label(i: Intent): string {
    match i
    case AnswerQuestion => "ANSWER_QUESTION"
    case CreateTicket => "CREATE_TICKET"
    case GetTicketStatus => "GET_TICKET_STATUS"
  }

  /** A decoded JSON value (what `json.loads` produces). */
  datatype Json =
    | JNull
    | JBool(b: bool)
    | JNumber(n: real)
    | JString(s: string)
    | JArray(items: seq<Json>)
    | JObject(members: map<string, Json>)

  /** `json.loads`: the decoded value, or `None` when the text is not JSON. */
  type JsonDecoder = string -> Option<Json>

  /** The enum lookup `Intent(value)`: it succeeds exactly on a string equal,
      character for character, to one of the labels. */
  function IntentFromValue(v: Json): (r: Option<Intent>)
    ensures r.Some? ==> v == JString(Label(r.value))
    ensures forall i :: v == JString(Label(i)) ==> r == Some(i)
  {
    if v == JString("ANSWER_QUESTION") then Some(AnswerQuestion)
    else if v == JString("CREATE_TICKET") then Some(CreateTicket)
    else if v == JString("GET_TICKET_STATUS") then Some(GetTicketStatus)
    else None
  }

  /** The labels are pairwise distinct, so the label determines the intent. */
  lemma LabelInjective(i: Intent, j: Intent)
    requires Label(i) == Label(j)
    ensures i == j
  {
  }

  // ---------------------------------------------------------------------------
  // Python's `str.strip()`
  // ---------------------------------------------------------------------------

  /** The characters for which Python's `str.isspace()` holds. */
  predicate IsSpace(c: char) {
    c == ' ' || c == '\t' || c == '\n' || c == '\r' || c == '\U{B}' || c == '\U{C}' ||
    ('\U{1C}' <= c <= '\U{1F}') || c == '\U{85}' || c == '\U{A0}' || c == '\U{1680}' ||
    ('\U{2000}' <= c <= '\U{200A}') || c == '\U{2028}' || c == '\U{2029}' ||
    c == '\U{202F}' || c == '\U{205F}' || c == '\U{3000}'
  }

  /** The first index at or after `i` that does not hold whitespace, or `|s|`. */
  function SkipLeading(s: string, i: nat): (k: nat)
    requires i <= |s|
    ensures i <= k <= |s|
    ensures forall t :: i <= t < k ==> IsSpace(s[t])
    ensures k < |s| ==> !IsSpace(s[k])
    decreases |s| - i
  {
    if i == |s| || !IsSpace(s[i]) then i else SkipLeading(s, i + 1)
  }

  /** The end, at or after `lo`, of `s[lo..j]` once trailing whitespace is cut. */
  function SkipTrailing(s: string, lo: nat, j: nat): (k: nat)
    requires lo <= j <= |s|
    ensures lo <= k <= j
    ensures forall t :: k <= t < j ==> IsSpace(s[t])
    ensures k > lo ==> !IsSpace(s[k - 1])
    decreases j
  {
    if j == lo || !IsSpace(s[j - 1]) then j else SkipTrailing(s, lo, j - 1)
  }

  /** `s.strip()`: `s` without its leading and trailing whitespace. */
  function Strip(s: string): (r: string)
    ensures |r| <= |s|
    ensures r == [] || (!IsSpace(r[0]) && !IsSpace(r[|r| - 1]))
    ensures r == [] ==> forall t :: 0 <= t < |s| ==> IsSpace(s[t])
  {
    var a := SkipLeading(s, 0);
    s[a..SkipTrailing(s, a, |s|)]
  }

  /** Padding a text that has no whitespace at either end, with whitespace on
      both sides, is undone by `strip`: the model's reply may be surrounded by
      blank lines without changing what is parsed. */
  lemma StripUnpads(left: string, t: string, right: string)
    requires forall k :: 0 <= k < |left| ==> IsSpace(left[k])
    requires forall k :: 0 <= k < |right| ==> IsSpace(right[k])
    requires t == [] || (!IsSpace(t[0]) && !IsSpace(t[|t| - 1]))
    ensures Strip(left + t + right) == t
  {
    var s := left + t + right;
    var a := SkipLeading(s, 0);
    if t == [] {
      assert forall k :: 0 <= k < |s| ==> IsSpace(s[k]) by {
        forall k | 0 <= k < |s| ensures IsSpace(s[k]) {
          if k < |left| { assert s[k] == left[k]; } else { assert s[k] == right[k - |left|]; }
        }
      }
      assert a == |s|;
    } else {
      assert s[|left|] == t[0];
      assert forall k :: 0 <= k < |left| ==> s[k] == left[k];
      assert a == |left|;
      var b := SkipTrailing(s, a, |s|);
      assert s[|left| + |t| - 1] == t[|t| - 1];
      assert forall k :: |left| + |t| <= k < |s| ==> s[k] == right[k - |left| - |t|];
      assert b == |left| + |t|;
      assert s[a..b] == t;
    }
  }

  /** Stripping twice is stripping once. */
  lemma StripIdempotent(s: string)
    ensures Strip(Strip(s)) == Strip(s)
  {
    StripUnpads([], Strip(s), []);
    assert [] + Strip(s) + [] == Strip(s);
  }

  // ---------------------------------------------------------------------------
  // The outgoing message list
  // ---------------------------------------------------------------------------

  /** The fixed classification instruction; its wording is not modelled. */
  const SystemInstructions: string

  /** One entry of the outgoing message list. */
  datatype OutMessage = OutMessage(role: string, content: string, context: Option<Json>)

  /** The system entry that opens every outgoing list. */
  function SystemEntry(): OutMessage {
    OutMessage("system", SystemInstructions, None)
  }

  /** The outgoing entry for one truthy request message, or `None` when the
      source raises on it: a missing `role` or `content` key, or an assistant
      message whose `context` text is not JSON. */
  function Converted(m: Message, jsonLoads: JsonDecoder): (r: Option<OutMessage>)
    ensures r.Some? <==>
      "role" in m && "content" in m &&
      (m["role"] == "assistant" && "context" in m ==> jsonLoads(m["context"]).Some?)
    ensures r.Some? ==> r.value.role == m["role"] && r.value.content == m["content"]
    ensures r.Some? ==>
      (r.value.context.Some? <==> m["role"] == "assistant" && "context" in m)
    ensures r.Some? && r.value.context.Some? ==> jsonLoads(m["context"]) == r.value.context
  {
    if "role" !in m || "content" !in m then None
    else if m["role"] == "assistant" && "context" in m then
      match jsonLoads(m["context"])
      case None => None
      case Some(ctx) => Some(OutMessage(m["role"], m["content"], Some(ctx)))
    else Some(OutMessage(m["role"], m["content"], None))
  }

  /** The outgoing list for `msgs`, or `None` when building it raises. */
  function Outgoing(msgs: seq<Message>, jsonLoads: JsonDecoder): Option<seq<OutMessage>>
    decreases |msgs|
  {
    if msgs == [] then Some([SystemEntry()])
    else
      match Outgoing(msgs[..|msgs| - 1], jsonLoads)
      case None => None
      case Some(prefix) =>
        var m := msgs[|msgs| - 1];
        if !Truthy(m) then Some(prefix)
        else
          match Converted(m, jsonLoads)
          case None => None
          case Some(o) => Some(prefix + [o])
  }

  /** Once a prefix of the request raises, the whole build raises. */
  lemma {:induction false} OutgoingFailurePersists(msgs: seq<Message>, n: nat, jsonLoads: JsonDecoder)
    requires n <= |msgs|
    requires Outgoing(msgs[..n], jsonLoads).None?
    ensures Outgoing(msgs, jsonLoads).None?
    decreases |msgs| - n
  {
    if n < |msgs| {
      assert msgs[..n + 1][..n] == msgs[..n];
      OutgoingFailurePersists(msgs, n + 1, jsonLoads);
    } else {
      assert msgs[..n] == msgs;
    }
  }

  /** The build succeeds exactly when every truthy request message converts. */
  lemma {:induction false} OutgoingSucceeds(msgs: seq<Message>, jsonLoads: JsonDecoder)
    ensures Outgoing(msgs, jsonLoads).Some? <==>
      forall k :: 0 <= k < |msgs| && Truthy(msgs[k]) ==> Converted(msgs[k], jsonLoads).Some?
    decreases |msgs|
  {
    if msgs != [] {
      var init := msgs[..|msgs| - 1];
      OutgoingSucceeds(init, jsonLoads);
      assert forall k :: 0 <= k < |init| ==> init[k] == msgs[k];
    }
  }

  /** A successful build is the system entry followed by the conversion of
      every truthy request message, in the request's order. Roles are not
      filtered: tool messages are forwarded too. */
  lemma {:induction false} OutgoingContents(msgs: seq<Message>, jsonLoads: JsonDecoder)
    requires Outgoing(msgs, jsonLoads).Some?
    ensures var out := Outgoing(msgs, jsonLoads).value;
            var kept := Filter(msgs, Truthy);
            |out| == 1 + |kept| && out[0] == SystemEntry() &&
            forall k :: 0 <= k < |kept| ==> Converted(kept[k], jsonLoads) == Some(out[k + 1])
    decreases |msgs|
  {
    if msgs != [] {
      var init := msgs[..|msgs| - 1];
      var m := msgs[|msgs| - 1];
      assert msgs == init + [m];
      FilterSnoc(init, m, Truthy);
      OutgoingContents(init, jsonLoads);
    }
  }

  /** Builds the outgoing list by appending inside a loop over the request
      messages, stopping at the first message that raises. */
  method BuildOutgoing(requestMessages: seq<Message>, jsonLoads: JsonDecoder)
    returns (messages: Option<seq<OutMessage>>)
    ensures messages == Outgoing(requestMessages, jsonLoads)
  {
    var out := [SystemEntry()];
    var i := 0;
    while i < |requestMessages|
      invariant 0 <= i <= |requestMessages|
      invariant Outgoing(requestMessages[..i], jsonLoads) == Some(out)
    {
      var message := requestMessages[i];
      assert requestMessages[..i + 1][..i] == requestMessages[..i];
      if Truthy(message) {
        if "role" !in message || "content" !in message {
          OutgoingFailurePersists(requestMessages, i + 1, jsonLoads);
          return None;
        }
        if message["role"] == "assistant" && "context" in message {
          var contextObj := jsonLoads(message["context"]);
          if contextObj.None? {
            OutgoingFailurePersists(requestMessages, i + 1, jsonLoads);
            return None;
          }
          out := out + [OutMessage(message["role"], message["content"], contextObj)];
        } else {
          out := out + [OutMessage(message["role"], message["content"], None)];
        }
      }
      i := i + 1;
    }
    assert requestMessages[..i] == requestMessages;
    messages := Some(out);
  }

  // ---------------------------------------------------------------------------
  // The classification call and its reply
  // ---------------------------------------------------------------------------

  /** The arguments of the single chat-completion call. */
  datatype CompletionRequest =
    CompletionRequest(messages: seq<OutMessage>, temperature: real, stream: bool, model: string)

  /** What the client call yields: it raised (including a reply with no
      choices), or the first choice's message content, which may be null. */
  datatype Completion = ClientError | Choice(content: Option<string>)

  /** The completion client, as a function of the request it is sent. */
  type CompletionClient = CompletionRequest -> Completion

  /** A `UserIntentDetector`: the client and the deployment name it was built with. */
  datatype UserIntentDetector = UserIntentDetector(client: CompletionClient, model: string)

  /** The classification call: pinned temperature, no streaming, the configured model. */
  function ClassificationRequest(messages: seq<OutMessage>, model: string): (r: CompletionRequest)
    ensures r.temperature == 0.0 && !r.stream && r.model == model && r.messages == messages
  {
    CompletionRequest(messages, 0.0, false, model)
  }

  /** The intent named by a reply, or `None` when reading it raises: a client
      error, null content, non-JSON text, a value that is not an object, a
      missing `"intent"` key or an unknown label. */
  function ReplyIntent(reply: Completion, jsonLoads: JsonDecoder): (r: Option<Intent>)
    ensures r.Some? ==>
              reply.Choice? && reply.content.Some? &&
              var decoded := jsonLoads(Strip(reply.content.value));
              decoded.Some? && decoded.value.JObject? && "intent" in decoded.value.members &&
              decoded.value.members["intent"] == JString(Label(r.value))
    ensures forall i ::
              (reply.Choice? && reply.content.Some? &&
               var decoded := jsonLoads(Strip(reply.content.value));
               decoded.Some? && decoded.value.JObject? && "intent" in decoded.value.members &&
               decoded.value.members["intent"] == JString(Label(i))) ==> r == Some(i)
  {
    match reply
    case ClientError => None
    case Choice(content) =>
      if content.None? then None
      else
        match jsonLoads(Strip(content.value))
        case Some(JObject(members)) =>
          if "intent" in members then IntentFromValue(members["intent"]) else None
        case _ => None
  }

  /** What `get_user_intent` returns. */
  function Classify(detector: UserIntentDetector, requestMessages: seq<Message>, jsonLoads: JsonDecoder): Intent {
    match Outgoing(requestMessages, jsonLoads)
    case None => AnswerQuestion
    case Some(messages) =>
      ReplyIntent(detector.client(ClassificationRequest(messages, detector.model)), jsonLoads).GetOr(AnswerQuestion)
  }

  /** `get_user_intent`: every failure inside is caught and becomes ANSWER_QUESTION. */
  method GetUserIntent(detector: UserIntentDetector, requestMessages: seq<Message>, jsonLoads: JsonDecoder)
    returns (intent: Intent)
    ensures intent == Classify(detector, requestMessages, jsonLoads)
  {
    var messages := BuildOutgoing(requestMessages, jsonLoads);
    if messages.None? {
      return AnswerQuestion;
    }
    var response := detector.client(ClassificationRequest(messages.value, detector.model));
    if response.ClientError? || response.content.None? {
      return AnswerQuestion;
    }
    var asJson := jsonLoads(Strip(response.content.value));
    if asJson.None? || !asJson.value.JObject? || "intent" !in asJson.value.members {
      return AnswerQuestion;
    }
    var found := IntentFromValue(asJson.value.members["intent"]);
    if found.None? {
      return AnswerQuestion;
    }
    intent := found.value;
  }

  // ---------------------------------------------------------------------------
  // Properties of the classifier
  // ---------------------------------------------------------------------------

  /** A request message that raises while the list is built forces the fallback,
      whatever the model would have answered. */
  lemma MalformedMessageFallsBack(detector: UserIntentDetector, requestMessages: seq<Message>,
                                  jsonLoads: JsonDecoder, k: nat)
    requires k < |requestMessages| && Truthy(requestMessages[k])
    requires Converted(requestMessages[k], jsonLoads).None?
    ensures Classify(detector, requestMessages, jsonLoads) == AnswerQuestion
  {
    OutgoingSucceeds(requestMessages, jsonLoads);
  }

  /** A reply that strips to a JSON object whose `"intent"` is exactly one of the
      labels yields exactly that intent. */
  lemma ExactLabelIsReturned(detector: UserIntentDetector, requestMessages: seq<Message>,
                             jsonLoads: JsonDecoder, text: string, members: map<string, Json>, i: Intent)
    requires Outgoing(requestMessages, jsonLoads).Some?
    requires detector.client(ClassificationRequest(Outgoing(requestMessages, jsonLoads).value, detector.model))
             == Choice(Some(text))
    requires jsonLoads(Strip(text)) == Some(JObject(members))
    requires "intent" in members && members["intent"] == JString(Label(i))
    ensures Classify(detector, requestMessages, jsonLoads) == i
  {
  }

  /** Conversely, a ticket intent is only ever returned when the build succeeded
      and the model's stripped reply decodes to an object carrying that exact
      label: every other outcome is the fallback. */
  lemma {:induction false} TicketIntentNeedsExactLabel(detector: UserIntentDetector, requestMessages: seq<Message>,
                                                       jsonLoads: JsonDecoder)
    requires Classify(detector, requestMessages, jsonLoads) != AnswerQuestion
    ensures Outgoing(requestMessages, jsonLoads).Some?
    ensures var reply := detector.client(ClassificationRequest(Outgoing(requestMessages, jsonLoads).value, detector.model));
            reply.Choice? && reply.content.Some? &&
            var decoded := jsonLoads(Strip(reply.content.value));
            decoded.Some? && decoded.value.JObject? && "intent" in decoded.value.members &&
            decoded.value.members["intent"] == JString(Label(Classify(detector, requestMessages, jsonLoads)))
  {
    var intent := Classify(detector, requestMessages, jsonLoads);
    match Outgoing(requestMessages, jsonLoads)
    case None =>
    case Some(messages) =>
      var reply := detector.client(ClassificationRequest(messages, detector.model));
      assert ReplyIntent(reply, jsonLoads) == Some(intent);
  }

  /** Whitespace around the model's reply never changes the classification. */
  lemma ReplyPaddingIgnored(reply: string, left: string, right: string, jsonLoads: JsonDecoder)
    requires forall k :: 0 <= k < |left| ==> IsSpace(left[k])
    requires forall k :: 0 <= k < |right| ==> IsSpace(right[k])
    ensures ReplyIntent(Choice(Some(left + Strip(reply) + right)), jsonLoads)
            == ReplyIntent(Choice(Some(reply)), jsonLoads)
  {
    StripUnpads(left, Strip(reply), right);
    StripIdempotent(reply);
  }
}

=== FILE: orchestrator.dfy ===
/** The orchestrator: classify the request, then start exactly one of the two
    response paths (the tool-calling ticket chat, or the externally supplied
    direct-answer path), re-raising whatever either of them raises. */
module Orchestrator {
  import opened Wrappers
  import opened Requests
  import opened IntentDetection
  import Chat

  /** The ticket-flow system message; its wording is not modelled. */
  const TicketSystemMessage: string

  /** The service id the ticket chat is created with. */
  const TicketChatId := "helpdesk_assistant"

  /** The intents served by the ticket chat. */
  predicate IsTicketIntent(intent: Intent) {
    intent == CreateTicket || intent == GetTicketStatus
  }

  /** An opaque handle on the stream the direct-answer path returns. */
  type AnswerStream = string

  /** What calling `run_aoai_on_your_data_fn()` yields: its stream, or the
      message of what it raised. */
  datatype AnswerOutcome = Answered(stream: AnswerStream) | AnswerRaised(reason: string)

  /** The collaborators of one `run`: the classifier and `json.loads` it uses,
      the outcome of `Chat.create` (`Some(reason)` when it raises) and of the
      direct-answer function. */
  datatype Collaborators = Collaborators(
    detector: UserIntentDetector,
    jsonLoads: JsonDecoder,
    chatCreateFailure: Option<string>,
    answer: AnswerOutcome)

  /** An exception that leaves `run`. */
  datatype Failure =
    | RequestNotAMapping                // `request_body.get` does not exist
    | ChatCreateFailed(reason: string)  // `Chat.create` raised
    | ChatInvokeFailed(error: Chat.ChatError)
    | AnswerPathFailed(reason: string)
    | IntentUnbound(original: Failure)  // the log line's own error, raised while handling `original`

  /** The two response paths. */
  datatype Path = TicketChat | DirectAnswer

  /** The lazy stream `run` returns. */
  datatype Stream = ChatStream(generator: Chat.Generator) | AnswerPathStream(stream: AnswerStream)

  /** What `run` does: the intent it obtained (if it got that far), the path it
      started (if any), and what it returns or raises. */
  datatype RunTrace = RunTrace(classified: Option<Intent>, started: Option<Path>, outcome: Result<Stream, Failure>)

  /** The path chosen for an intent. */
  function PathFor(intent: Intent): (p: Path)
    ensures p == TicketChat <==> IsTicketIntent(intent)
  {
    if intent == CreateTicket || intent == GetTicketStatus then TicketChat else DirectAnswer
  }

  /** The execution settings of the ticket chat: automatic function choice. */
  function TicketSettings(): Chat.ExecutionSettings {
    Chat.ExecutionSettings(Some(Chat.Auto))
  }

  /** Starting the ticket chat path for the request. */
  function StartTicketChat(request: RequestBody, c: Collaborators): (r: Result<Stream, Failure>)
    ensures c.chatCreateFailure.Some? ==> r == Err(ChatCreateFailed(c.chatCreateFailure.value))
    ensures r.Ok? ==>
              r.value.ChatStream? &&
              r.value.generator.session == Chat.Create(TicketChatId) &&
              r.value.generator.arguments.settings.functionChoiceBehavior == Some(Chat.Auto)
    ensures c.chatCreateFailure.None? && r.Err? ==> r.error.ChatInvokeFailed?
    ensures c.chatCreateFailure.None? ==>
              var invoked := Chat.Invocation(Chat.Create(TicketChatId), TicketSettings(), request, TicketSystemMessage);
              (invoked.Ok? ==> r == Ok(ChatStream(invoked.value))) &&
              (invoked.Err? ==> r == Err(ChatInvokeFailed(invoked.error)))
  {
    if c.chatCreateFailure.Some? then Err(ChatCreateFailed(c.chatCreateFailure.value))
    else
      match Chat.Invocation(Chat.Create(TicketChatId), TicketSettings(), request, TicketSystemMessage)
      case Ok(generator) => Ok(ChatStream(generator))
      case Err(e) => Err(ChatInvokeFailed(e))
  }

  /** Starting the direct-answer path: its stream or its error, unchanged. */
  function StartDirectAnswer(c: Collaborators): (r: Result<Stream, Failure>)
    ensures r.Ok? <==> c.answer.Answered?
    ensures r.Ok? ==> r.value == AnswerPathStream(c.answer.stream)
    ensures r.Err? ==> r.error == AnswerPathFailed(c.answer.reason)
  {
    match c.answer
    case Answered(stream) => Ok(AnswerPathStream(stream))
    case AnswerRaised(reason) => Err(AnswerPathFailed(reason))
  }

  /** Classification and dispatch, once the request's messages are read. */
  function Dispatch(request: RequestBody, messages: seq<Message>, c: Collaborators): (r: RunTrace)
    ensures r.classified == Some(Classify(c.detector, messages, c.jsonLoads))
    ensures r.started == Some(PathFor(r.classified.value))
    ensures r.started == Some(TicketChat) ==> r.outcome == StartTicketChat(request, c)
    ensures r.started == Some(DirectAnswer) ==> r.outcome == StartDirectAnswer(c)
  {
    var intent := Classify(c.detector, messages, c.jsonLoads);
    match PathFor(intent)
    case TicketChat => RunTrace(Some(intent), Some(TicketChat), StartTicketChat(request, c))
    case DirectAnswer => RunTrace(Some(intent), Some(DirectAnswer), StartDirectAnswer(c))
  }

  /** `Orchestrator.run` as written: when `request_body.get` raises, `intent` is
      not yet bound, so the log line in the handler raises its own error, which
      replaces the original one. */
  function RunAsWritten(request: RequestBody, c: Collaborators): (r: RunTrace)
    ensures request.NotAMapping? ==> r.outcome == Err(IntentUnbound(RequestNotAMapping))
  {
    match MessagesOf(request)
    case None => RunTrace(None, None, Err(IntentUnbound(RequestNotAMapping)))
    case Some(messages) => Dispatch(request, messages, c)
  }

  /** `Orchestrator.run` with the evident intent of its handler: every exception
      raised while reading the request, classifying or starting a path is
      re-raised unchanged. The classifier runs once, on `messages` (default
      `[]`), and exactly one path is started, chosen by the intent. */
  function Run(request: RequestBody, c: Collaborators): (r: RunTrace)
    ensures r.classified.Some? <==> request.Body?
    ensures r.started.Some? <==> request.Body?
    ensures request.Body? ==>
              r.classified == Some(Classify(c.detector, request.messages.GetOr([]), c.jsonLoads)) &&
              r.started == Some(PathFor(r.classified.value))
    ensures request.NotAMapping? ==> r.outcome == Err(RequestNotAMapping)
  {
    match MessagesOf(request)
    case None => RunTrace(None, None, Err(RequestNotAMapping))
    case Some(messages) => Dispatch(request, messages, c)
  }

  // ---------------------------------------------------------------------------
  // Properties of the routing
  // ---------------------------------------------------------------------------

  /** A ticket intent starts the chat created as `helpdesk_assistant`, with
      automatic function choice and the ticket system message opening its
      history; its failures are re-raised unchanged. */
  lemma TicketIntentStartsChat(request: RequestBody, c: Collaborators)
    requires request.Body?
    requires IsTicketIntent(Classify(c.detector, request.messages.GetOr([]), c.jsonLoads))
    ensures var r := Run(request, c);
            r.started == Some(TicketChat) &&
            (c.chatCreateFailure.Some? ==> r.outcome == Err(ChatCreateFailed(c.chatCreateFailure.value))) &&
            (c.chatCreateFailure.None? && r.outcome.Ok? ==>
               var g := r.outcome.value.generator;
               r.outcome.value.ChatStream? &&
               g.session.serviceId == "helpdesk_assistant" &&
               g.arguments.settings.functionChoiceBehavior == Some(Chat.Auto) &&
               g.arguments.chatHistory[0] == Chat.ChatMessage(Chat.SystemRole, TicketSystemMessage)) &&
            (c.chatCreateFailure.None? && r.outcome.Err? ==>
               var invoked := Chat.Invocation(Chat.Create(TicketChatId), TicketSettings(), request, TicketSystemMessage);
               invoked.Err? && r.outcome.error == ChatInvokeFailed(invoked.error))
  {
    var invoked := Chat.Invocation(Chat.Create(TicketChatId), TicketSettings(), request, TicketSystemMessage);
    if invoked.Ok? {
      Chat.InvocationExcludesTools(Chat.Create(TicketChatId), TicketSettings(), request, TicketSystemMessage);
    }
  }

  /** On the ticket path, every fragment streamed back to the caller carries
      the request's `history_metadata` unchanged (or `{}`). */
  lemma TicketStreamCarriesRequestMetadata(request: RequestBody, c: Collaborators, stream: seq<Chat.StreamItem>)
    requires Run(request, c).started == Some(TicketChat) && Run(request, c).outcome.Ok?
    ensures request.Body?
    ensures Run(request, c).outcome.value.ChatStream?
    ensures var fragments := Chat.Fragments(Run(request, c).outcome.value.generator, stream);
            forall k :: 0 <= k < |fragments| ==> fragments[k].historyMetadata == request.historyMetadata.GetOr(map[])
  {
    Chat.FragmentsCarryRequestMetadata(Chat.Create(TicketChatId), TicketSettings(), request, TicketSystemMessage, stream);
  }

  /** Any other intent returns the direct-answer path's stream, or re-raises its
      error, unchanged; no chat is started. */
  lemma OtherIntentDelegates(request: RequestBody, c: Collaborators)
    requires request.Body?
    requires !IsTicketIntent(Classify(c.detector, request.messages.GetOr([]), c.jsonLoads))
    ensures var r := Run(request, c);
            r.started == Some(DirectAnswer) &&
            (c.answer.Answered? ==> r.outcome == Ok(AnswerPathStream(c.answer.stream))) &&
            (c.answer.AnswerRaised? ==> r.outcome == Err(AnswerPathFailed(c.answer.reason)))
  {
  }

  /** A failing classification (a malformed message, a client error, an unknown
      label) routes to the direct-answer path, never to the ticket chat. */
  lemma ClassifierFailureDelegates(request: RequestBody, c: Collaborators)
    requires request.Body?
    requires Outgoing(request.messages.GetOr([]), c.jsonLoads).None? ||
             ReplyIntent(c.detector.client(ClassificationRequest(
               Outgoing(request.messages.GetOr([]), c.jsonLoads).value, c.detector.model)), c.jsonLoads).None?
    ensures Run(request, c).started == Some(DirectAnswer)
  {
  }

  /** The handler as written agrees with the intended one on every request whose
      body is a mapping, and replaces the original error when it is not. */
  lemma HandlerReplacesOriginalError(request: RequestBody, c: Collaborators)
    ensures request.Body? ==> RunAsWritten(request, c) == Run(request, c)
    ensures request.NotAMapping? ==>
              RunAsWritten(request, c).outcome == Err(IntentUnbound(RequestNotAMapping)) &&
              Run(request, c).outcome == Err(RequestNotAMapping)
  {
  }
}

=== FILE: requests.dfy ===
/** The inbound chat request as the orchestration layer reads it. */
module Requests {
  import opened Wrappers

  /** One entry of the request's `messages` list: a JSON object whose keys
      (`role`, `content`, `context`, `id`, ...) map to text. */
  type Message = map<string, string>

  /** The caller's opaque `history_metadata` mapping. */
  type Metadata = map<string, string>

  /** The request body: a mapping in which `messages` and `history_metadata`
      may be absent, or something that is not a mapping at all (so `.get`
      raises). */
  datatype RequestBody =
    | Body(messages: Option<seq<Message>>, historyMetadata: Option<Metadata>)
    | NotAMapping

  /** Python truthiness of a message dictionary: it has at least one key. */
  predicate Truthy(m: Message) {
    m != map[]
  }

  /** `request_body.get("messages", [])`; `None` when the body has no `.get`. */
  function MessagesOf(body: RequestBody): (r: Option<seq<Message>>)
    ensures r.None? <==> body.NotAMapping?
    ensures body.Body? && body.messages.None? ==> r == Some([])
    ensures body.Body? && body.messages.Some? ==> r == body.messages
  {
    match body
    case NotAMapping => None
    case Body(messages, _) => Some(messages.GetOr([]))
  }

  /** `request_body.get("history_metadata", {})`. */
  function HistoryMetadataOf(body: RequestBody): (r: Option<Metadata>)
    ensures r.None? <==> body.NotAMapping?
    ensures body.Body? && body.historyMetadata.None? ==> r == Some(map[])
    ensures body.Body? && body.historyMetadata.Some? ==> r == body.historyMetadata
  {
    match body
    case NotAMapping => None
    case Body(_, metadata) => Some(metadata.GetOr(map[]))
  }
}

=== FILE: search_plugin.dfy ===
/** The document-search capability: it sends the query to the knowledge index,
    projects every hit of every page to a `Document`, and keeps the documents
    that meet both score thresholds. */
module SearchPlugin {
  import opened Wrappers
  import opened Sequences
  import opened AiSearch

  /** A search result as handed to the model; every field may be absent. */
  datatype Document = Document(
    id: Option<string>,
    parentId: Option<string>,
    content: Option<string>,
    title: Option<string>,
    score: Option<real>,
    rerankerScore: Option<real>)

  /** One raw hit: its text-valued keys and its numeric keys. */
  datatype RawHit = RawHit(text: map<string, string>, numbers: map<string, real>)

  /** `dict.get(key)`: the value under `key`, or `None` when absent. */
  function Lookup<V>(m: map<string, V>, key: string): (r: Option<V>)
    ensures r.Some? <==> key in m
    ensures r.Some? ==> r.value == m[key]
  {
    if key in m then Some(m[key]) else None
  }

  /** The `Document` built from a hit: each field is the hit's value under its
      key, absent keys becoming `None`. */
  function Project(hit: RawHit): (d: Document)
    ensures d.id.Some? <==> "id" in hit.text
    ensures d.parentId.Some? <==> "parent_id" in hit.text
    ensures d.content.Some? <==> "content" in hit.text
    ensures d.title.Some? <==> "title" in hit.text
    ensures d.score.Some? <==> "@search.score" in hit.numbers
    ensures d.rerankerScore.Some? <==> "@search.reranker_score" in hit.numbers
    ensures d.id.Some? ==> d.id.value == hit.text["id"]
    ensures d.parentId.Some? ==> d.parentId.value == hit.text["parent_id"]
    ensures d.content.Some? ==> d.content.value == hit.text["content"]
    ensures d.title.Some? ==> d.title.value == hit.text["title"]
    ensures d.score.Some? ==> d.score.value == hit.numbers["@search.score"]
    ensures d.rerankerScore.Some? ==> d.rerankerScore.value == hit.numbers["@search.reranker_score"]
  {
    Document(
      Lookup(hit.text, "id"),
      Lookup(hit.text, "parent_id"),
      Lookup(hit.text, "content"),
      Lookup(hit.text, "title"),
      Lookup(hit.numbers, "@search.score"),
      Lookup(hit.numbers, "@search.reranker_score"))
  }

  /** Every hit of a list, projected, in order. */
  function Projected(hits: seq<RawHit>): (docs: seq<Document>)
    ensures |docs| == |hits|
    ensures forall k :: 0 <= k < |hits| ==> docs[k] == Project(hits[k])
  {
    seq(|hits|, k requires 0 <= k < |hits| => Project(hits[k]))
  }

  /** The configured plugin; both thresholds may be `None`. */
  datatype AzureAISearchPlugin = AzureAISearchPlugin(
    searchService: AiSearchService,
    minimumSearchScore: Option<real>,
    minimumRerankerScore: Option<real>)

  /** The constructor's keyword arguments (each may be passed as `None`). */
  datatype PluginKeywords = PluginKeywords(
    minimumSearchScore: Keyword<Option<real>>,
    minimumRerankerScore: Keyword<Option<real>>)

  /** `AzureAISearchPlugin.__init__`: an omitted threshold is 0.0. */
  function NewPlugin(searchService: AiSearchService, kwargs: PluginKeywords): (p: AzureAISearchPlugin)
    ensures p.searchService == searchService
    ensures kwargs.minimumSearchScore.Omitted? ==> p.minimumSearchScore == Some(0.0)
    ensures kwargs.minimumRerankerScore.Omitted? ==> p.minimumRerankerScore == Some(0.0)
    ensures kwargs.minimumSearchScore.Passed? ==> p.minimumSearchScore == kwargs.minimumSearchScore.value
    ensures kwargs.minimumRerankerScore.Passed? ==> p.minimumRerankerScore == kwargs.minimumRerankerScore.value
  {
    AzureAISearchPlugin(searchService,
                        kwargs.minimumSearchScore.Get(Some(0.0)),
                        kwargs.minimumRerankerScore.Get(Some(0.0)))
  }

  /** `x or 0` on an optional score. */
  function OrZero(x: Option<real>): real {
    x.GetOr(0.0)
  }

  /** A document meets both thresholds, a missing value counting as 0. */
  predicate Qualifies(plugin: AzureAISearchPlugin, doc: Document): (b: bool)
    ensures doc.score.Some? && doc.rerankerScore.Some? &&
            plugin.minimumSearchScore.Some? && plugin.minimumRerankerScore.Some? ==>
              (b <==> doc.score.value >= plugin.minimumSearchScore.value &&
                      doc.rerankerScore.value >= plugin.minimumRerankerScore.value)
    ensures b && doc.score.None? ==> plugin.minimumSearchScore.None? || plugin.minimumSearchScore.value <= 0.0
    ensures b && doc.rerankerScore.None? ==> plugin.minimumRerankerScore.None? || plugin.minimumRerankerScore.value <= 0.0
  {
    OrZero(doc.score) >= OrZero(plugin.minimumSearchScore) &&
    OrZero(doc.rerankerScore) >= OrZero(plugin.minimumRerankerScore)
  }

  /** The threshold filter: exactly the qualifying documents, in their order. */
  function QualifiedDocuments(plugin: AzureAISearchPlugin, docs: seq<Document>): (r: seq<Document>)
    ensures |r| <= |docs|
    ensures forall k :: 0 <= k < |r| ==> r[k] in docs && Qualifies(plugin, r[k])
    ensures forall k :: 0 <= k < |docs| && Qualifies(plugin, docs[k]) ==> docs[k] in r
  {
    Filter(docs, d => Qualifies(plugin, d))
  }

  /** The pages of the search result, each a list of raw hits. */
  type Pages = seq<seq<RawHit>>

  /** The search index, as a function of the call it receives. */
  type SearchIndex = SearchCall -> Pages

  /** Why `search` raises: no page was returned, so the filtered list was never assigned. */
  datatype SearchError = QualifiedDocumentsUnbound

  /** All hits of all pages, page after page. */
  function Flatten(pages: Pages): (hits: seq<RawHit>)
    decreases |pages|
  {
    if pages == [] then [] else Flatten(pages[..|pages| - 1]) + pages[|pages| - 1]
  }

  /** The call `search` makes. The user's query reaches the knowledge index
      unchanged: as the search text when text search is on, as the text of a
      50-neighbour vector query on `text_vector` when vector search is on, and
      as the semantic query when the ranker is on; no filter is sent. */
  function SearchCallFor(plugin: AzureAISearchPlugin, query: string): (call: SearchCall)
    ensures call.client == plugin.searchService.knowledgeSearchClient
    ensures call.args.filter.None? && call.args.top == plugin.searchService.top
    ensures plugin.searchService.useTextSearch ==> call.args.searchText == Some(query)
    ensures plugin.searchService.useVectorSearch ==>
              call.args.vectorQueries == [VectorizableTextQuery(query, 50, "text_vector")]
    ensures plugin.searchService.useSemanticRanker ==> call.args.semanticQuery == Some(query)
    ensures !plugin.searchService.useTextSearch ==> call.args.searchText == Some("")
    ensures !plugin.searchService.useVectorSearch ==> call.args.vectorQueries == []
  {
    SearchKnowledge(plugin.searchService, Some(query), None, [VectorizableTextQuery(query, 50, "text_vector")])
  }

  /** What `search` returns for the pages it receives. */
  function SearchResult(plugin: AzureAISearchPlugin, pages: Pages): Result<seq<Document>, SearchError> {
    if pages == [] then Err(QualifiedDocumentsUnbound)
    else Ok(QualifiedDocuments(plugin, Projected(Flatten(pages))))
  }

  /** `search`: collect a `Document` per hit across the pages, recomputing the
      threshold filter over everything collected after each page. */
  method Search(plugin: AzureAISearchPlugin, query: string, index: SearchIndex)
    returns (r: Result<seq<Document>, SearchError>)
    ensures r == SearchResult(plugin, index(SearchCallFor(plugin, query)))
  {
    var vectors := [VectorizableTextQuery(query, 50, "text_vector")];
    var pages := index(SearchKnowledge(plugin.searchService, Some(query), None, vectors));
    var documents: seq<Document> := [];
    var qualifiedDocuments: Option<seq<Document>> := None;
    var p := 0;
    while p < |pages|
      invariant 0 <= p <= |pages|
      invariant documents == Projected(Flatten(pages[..p]))
      invariant qualifiedDocuments == if p == 0 then None else Some(QualifiedDocuments(plugin, documents))
    {
      var page := pages[p];
      var j := 0;
      while j < |page|
        invariant 0 <= j <= |page|
        invariant documents == Projected(Flatten(pages[..p])) + Projected(page[..j])
      {
        assert page[..j + 1] == page[..j] + [page[j]];
        documents := documents + [Project(page[j])];
        j := j + 1;
      }
      assert page[..j] == page;
      assert pages[..p + 1][..p] == pages[..p];
      assert Flatten(pages[..p + 1]) == Flatten(pages[..p]) + page;
      qualifiedDocuments := Some(QualifiedDocuments(plugin, documents));
      p := p + 1;
    }
    assert pages[..p] == pages;
    if qualifiedDocuments.None? {
      return Err(QualifiedDocumentsUnbound);
    }
    r := Ok(qualifiedDocuments.value);
  }

  // ---------------------------------------------------------------------------
  // Properties of the search capability
  // ---------------------------------------------------------------------------

  /** The result is exactly the qualifying documents: every returned document
      meets both thresholds and came from some hit, and every hit whose document
      meets both thresholds is returned, whatever the other hits are. */
  lemma SearchKeepsExactlyQualifying(plugin: AzureAISearchPlugin, pages: Pages)
    requires pages != []
    ensures var docs := SearchResult(plugin, pages).value;
            var all := Projected(Flatten(pages));
            (forall k :: 0 <= k < |docs| ==> docs[k] in all && Qualifies(plugin, docs[k])) &&
            (forall k :: 0 <= k < |all| && Qualifies(plugin, all[k]) ==> all[k] in docs)
  {
  }

  /** The result is an order-preserving subsequence of all hits of all pages. */
  lemma SearchPreservesOrder(plugin: AzureAISearchPlugin, pages: Pages)
    requires pages != []
    ensures IsSubsequence(SearchResult(plugin, pages).value, Projected(Flatten(pages)))
  {
    FilterIsSubsequence(Projected(Flatten(pages)), d => Qualifies(plugin, d));
  }

  /** Raising either threshold never adds a document: the stricter result is a
      subsequence of the looser one. */
  lemma RaisingThresholdsNeverAdds(loose: AzureAISearchPlugin, strict: AzureAISearchPlugin, docs: seq<Document>)
    requires OrZero(strict.minimumSearchScore) >= OrZero(loose.minimumSearchScore)
    requires OrZero(strict.minimumRerankerScore) >= OrZero(loose.minimumRerankerScore)
    ensures IsSubsequence(QualifiedDocuments(strict, docs), QualifiedDocuments(loose, docs))
  {
    FilterStronger(docs, d => Qualifies(strict, d), d => Qualifies(loose, d));
  }

  /** A missing score, or a missing threshold, is treated exactly as 0. */
  lemma MissingValuesCountAsZero(plugin: AzureAISearchPlugin, doc: Document)
    ensures doc.score.None? ==>
              (Qualifies(plugin, doc) <==> Qualifies(plugin, doc.(score := Some(0.0))))
    ensures doc.rerankerScore.None? ==>
              (Qualifies(plugin, doc) <==> Qualifies(plugin, doc.(rerankerScore := Some(0.0))))
    ensures plugin.minimumSearchScore.None? ==>
              (Qualifies(plugin, doc) <==> Qualifies(plugin.(minimumSearchScore := Some(0.0)), doc))
    ensures plugin.minimumRerankerScore.None? ==>
              (Qualifies(plugin, doc) <==> Qualifies(plugin.(minimumRerankerScore := Some(0.0)), doc))
  {
  }

  /** With the default thresholds a document with no scores at all is kept. */
  lemma DefaultThresholdsKeepUnscored(service: AiSearchService, doc: Document)
    requires doc.score.None? && doc.rerankerScore.None?
    ensures Qualifies(NewPlugin(service, PluginKeywords(Omitted, Omitted)), doc)
  {
  }

  /** With no page at all, `search` raises instead of returning an empty list. */
  lemma NoPagesRaises(plugin: AzureAISearchPlugin)
    ensures SearchResult(plugin, []) == Err(QualifiedDocumentsUnbound)
  {
  }
}

=== FILE: sequences.dfy ===
/** Order-preserving filters over sequences (Python list comprehensions with an
    `if` clause, and loops that append only some elements). */
module Sequences {

  /** The elements of `s` that satisfy `p`, in their original order. */
  function Filter<T>(s: seq<T>, p: T -> bool): (r: seq<T>)
    ensures |r| <= |s|
    ensures forall i :: 0 <= i < |r| ==> r[i] in s && p(r[i])
    ensures forall i :: 0 <= i < |s| && p(s[i]) ==> s[i] in r
    decreases |s|
  {
    if s == [] then []
    else Filter(s[..|s| - 1], p) + (if p(s[|s| - 1]) then [s[|s| - 1]] else [])
  }

  /** `a` is obtained from `b` by deleting zero or more elements. */
  ghost predicate IsSubsequence<T>(a: seq<T>, b: seq<T>)
    decreases |b|
  {
    |a| <= |b| &&
    (a == [] ||
     (a[|a| - 1] == b[|b| - 1] && IsSubsequence(a[..|a| - 1], b[..|b| - 1])) ||
     IsSubsequence(a, b[..|b| - 1]))
  }

  /** Extending a filtered prefix by one element is the step of an appending loop. */
  lemma FilterSnoc<T>(s: seq<T>, x: T, p: T -> bool)
    ensures Filter(s + [x], p) == Filter(s, p) + (if p(x) then [x] else [])
  {
    assert (s + [x])[..|s|] == s;
  }

  /** Filtering distributes over concatenation. */
  lemma {:induction false} FilterConcat<T>(a: seq<T>, b: seq<T>, p: T -> bool)
    ensures Filter(a + b, p) == Filter(a, p) + Filter(b, p)
    decreases |b|
  {
    if b == [] {
      assert a + b == a;
    } else {
      var b' := b[..|b| - 1];
      var x := b[|b| - 1];
      assert a + b == (a + b') + [x];
      assert b == b' + [x];
      FilterSnoc(a + b', x, p);
      FilterSnoc(b', x, p);
      FilterConcat(a, b', p);
    }
  }

  /** A filter keeps the order of what it keeps. */
  lemma {:induction false} FilterIsSubsequence<T>(s: seq<T>, p: T -> bool)
    ensures IsSubsequence(Filter(s, p), s)
    decreases |s|
  {
    if s != [] {
      var s' := s[..|s| - 1];
      FilterIsSubsequence(s', p);
      var r := Filter(s, p);
      if p(s[|s| - 1]) {
        assert r[..|r| - 1] == Filter(s', p);
      } else {
        assert r == Filter(s', p);
      }
    }
  }

  /** Filtering with a stronger condition keeps a subsequence of what the weaker
      condition keeps: tightening a filter never adds an element. */
  lemma {:induction false} FilterStronger<T>(s: seq<T>, p: T -> bool, q: T -> bool)
    requires forall i :: 0 <= i < |s| && p(s[i]) ==> q(s[i])
    ensures IsSubsequence(Filter(s, p), Filter(s, q))
    decreases |s|
  {
    if s != [] {
      var s' := s[..|s| - 1];
      var x := s[|s| - 1];
      FilterStronger(s', p, q);
      var a, b := Filter(s, p), Filter(s, q);
      if p(x) {
        assert a[..|a| - 1] == Filter(s', p);
        assert b[..|b| - 1] == Filter(s', q);
      } else if q(x) {
        assert a == Filter(s', p);
        assert b[..|b| - 1] == Filter(s', q);
      } else {
        assert a == Filter(s', p);
        assert b == Filter(s', q);
      }
    }
  }

  /** Filtering first with a weaker condition changes nothing: a filter by `p`
      after a filter by `q` is the filter by `p` alone, when `p` implies `q`. */
  lemma {:induction false} FilterAbsorbs<T>(s: seq<T>, p: T -> bool, q: T -> bool)
    requires forall i :: 0 <= i < |s| && p(s[i]) ==> q(s[i])
    ensures Filter(Filter(s, q), p) == Filter(s, p)
    decreases |s|
  {
    if s != [] {
      var s' := s[..|s| - 1];
      var x := s[|s| - 1];
      assert s == s' + [x];
      FilterAbsorbs(s', p, q);
      FilterSnoc(s', x, q);
      FilterConcat(Filter(s', q), if q(x) then [x] else [], p);
      FilterSnoc([], x, p);
      assert [] + [x] == [x];
      FilterSnoc(s', x, p);
    }
  }

  /** The last element of a non-empty sequence. */
  function Last<T>(s: seq<T>): (x: T)
    requires s != []
    ensures x in s
  {
    s[|s| - 1]
  }
}

=== FILE: settings.dfy ===
/** The validation rules of the application settings: the OpenAI endpoint
    derived from an explicit value or from the resource name, the search
    endpoint built from service and suffix, the stop-sequence normalisation,
    the penalty ranges and the optional chat-history settings. */
module Settings {
  import opened Wrappers

  /** A setting as read from the environment: unset, parsed to the field's
      type, or present but not parseable as that type (a validation error). */
  datatype EnvValue<T> = Unset | Parsed(value: T) | Unparsable

  /** An optional string that is set and non-empty (Python truthiness). */
  predicate IsSetNonEmpty(s: Option<string>) {
    s.Some? && s.value != ""
  }

  // ---------------------------------------------------------------------------
  // stop_sequence
  // ---------------------------------------------------------------------------

  /** The raw value handed to the `stop_sequence` validator: a string, or any
      other kind of value. */
  datatype RawStop = RawText(text: string) | RawOther

  /** The column splitter `parse_multi_columns`, which is not part of this model. */
  type ColumnParser = string -> seq<string>

  /** `split_contexts`: only a non-empty string is split; anything else
      (an empty string, a value that is not a string) becomes `None`. */
  function SplitContexts(raw: RawStop, parseMultiColumns: ColumnParser): (r: Option<seq<string>>)
    ensures r.Some? <==> raw.RawText? && raw.text != ""
    ensures r.Some? ==> r.value == parseMultiColumns(raw.text)
  {
    if raw.RawText? && |raw.text| > 0 then Some(parseMultiColumns(raw.text)) else None
  }

  // ---------------------------------------------------------------------------
  // The OpenAI endpoint
  // ---------------------------------------------------------------------------

  const OpenAIScheme := "https://"
  const OpenAIHostSuffix := ".openai.azure.com"

  /** The endpoint of an OpenAI resource. */
  function ResourceEndpoint(resource: string): string {
    OpenAIScheme + resource + OpenAIHostSuffix
  }

  /** The resource name of an endpoint of the shape `ResourceEndpoint` builds. */
  function ResourceOf(endpoint: string): (r: Option<string>)
    ensures r.Some? ==> ResourceEndpoint(r.value) == endpoint
  {
    var n := |endpoint|;
    if n >= |OpenAIScheme| + |OpenAIHostSuffix| && endpoint[..|OpenAIScheme|] == OpenAIScheme &&
       endpoint[n - |OpenAIHostSuffix|..] == OpenAIHostSuffix
    then
      var resource := endpoint[|OpenAIScheme|..n - |OpenAIHostSuffix|];
      assert endpoint == endpoint[..|OpenAIScheme|] + resource + endpoint[n - |OpenAIHostSuffix|..];
      Some(resource)
    else None
  }

  /** The resource name can be read back from the derived endpoint. */
  lemma ResourceEndpointRoundTrip(resource: string)
    ensures ResourceOf(ResourceEndpoint(resource)) == Some(resource)
  {
    var e := ResourceEndpoint(resource);
    var n := |e|;
    assert e[..|OpenAIScheme|] == OpenAIScheme;
    assert e[n - |OpenAIHostSuffix|..] == OpenAIHostSuffix;
    assert e[|OpenAIScheme|..n - |OpenAIHostSuffix|] == resource;
  }

  /** The endpoint after `ensure_endpoint`, or `None` when it raises: an explicit
      endpoint is kept, otherwise it is derived from the resource, and with
      neither the validation fails. */
  function EnsuredEndpoint(endpoint: Option<string>, resource: Option<string>): (r: Option<string>)
    ensures IsSetNonEmpty(endpoint) ==> r == endpoint
    ensures !IsSetNonEmpty(endpoint) && IsSetNonEmpty(resource) ==> r == Some(ResourceEndpoint(resource.value))
    ensures r.None? <==> !IsSetNonEmpty(endpoint) && !IsSetNonEmpty(resource)
  {
    if IsSetNonEmpty(endpoint) then endpoint
    else if IsSetNonEmpty(resource) then Some(OpenAIScheme + resource.value + OpenAIHostSuffix)
    else None
  }

  /** A validated endpoint is never empty, and when it was derived, the
      resource it names is the configured one. */
  lemma EnsuredEndpointNamesResource(endpoint: Option<string>, resource: Option<string>)
    requires EnsuredEndpoint(endpoint, resource).Some?
    ensures EnsuredEndpoint(endpoint, resource).value != ""
    ensures !IsSetNonEmpty(endpoint) ==> ResourceOf(EnsuredEndpoint(endpoint, resource).value) == resource
  {
    if !IsSetNonEmpty(endpoint) {
      ResourceEndpointRoundTrip(resource.value);
    }
  }

  // ---------------------------------------------------------------------------
  // Penalties
  // ---------------------------------------------------------------------------

  /** A presence or frequency penalty: 0.0 when unset, otherwise a number in
      [-2.0, 2.0]; `None` when validation fails. */
  function Penalty(v: EnvValue<real>): (r: Option<real>)
    ensures r.Some? ==> -2.0 <= r.value <= 2.0
    ensures v.Unset? ==> r == Some(0.0)
    ensures v.Parsed? ==> (r.Some? <==> -2.0 <= v.value <= 2.0)
    ensures v.Parsed? && r.Some? ==> r.value == v.value
    ensures v.Unparsable? ==> r.None?
  {
    match v
    case Unset => Some(0.0)
    case Parsed(p) => if -2.0 <= p <= 2.0 then Some(p) else None
    case Unparsable => None
  }

  /** The OpenAI settings as the environment supplies them (only the fields
      with a validation rule). */
  datatype OpenAIInput = OpenAIInput(
    model: Option<string>,
    resource: Option<string>,
    endpoint: Option<string>,
    stopSequence: Option<RawStop>,
    presencePenalty: EnvValue<real>,
    frequencyPenalty: EnvValue<real>)

  /** The OpenAI settings object; `ensure_endpoint` updates `endpoint` in place. */
  class AzureOpenAISettings {
    var model: string
    var resource: Option<string>
    var endpoint: Option<string>
    var stopSequence: Option<seq<string>>
    var presencePenalty: real
    var frequencyPenalty: real

    /** The object invariant: both penalties within [-2.0, 2.0]. */
    ghost predicate Valid()
      reads this
    {
      -2.0 <= presencePenalty <= 2.0 && -2.0 <= frequencyPenalty <= 2.0
    }

    /** The object once its fields are validated, before the model validator. */
    constructor (model: string, resource: Option<string>, endpoint: Option<string>,
                 stopSequence: Option<seq<string>>, presencePenalty: real, frequencyPenalty: real)
      requires -2.0 <= presencePenalty <= 2.0 && -2.0 <= frequencyPenalty <= 2.0
      ensures Valid()
      ensures this.model == model && this.resource == resource && this.endpoint == endpoint
      ensures this.stopSequence == stopSequence
      ensures this.presencePenalty == presencePenalty && this.frequencyPenalty == frequencyPenalty
    {
      this.model := model;
      this.resource := resource;
      this.endpoint := endpoint;
      this.stopSequence := stopSequence;
      this.presencePenalty := presencePenalty;
      this.frequencyPenalty := frequencyPenalty;
    }

    /** `ensure_endpoint`: keep an explicit endpoint, or derive it from the
        resource; `ok` is false when the validator raises. */
    method EnsureEndpoint() returns (ok: bool)
      requires Valid()
      modifies this`endpoint
      ensures Valid()
      ensures ok <==> EnsuredEndpoint(old(endpoint), resource).Some?
      ensures ok ==> endpoint == EnsuredEndpoint(old(endpoint), resource)
      ensures !ok ==> endpoint == old(endpoint)
    {
      if endpoint.Some? && endpoint.value != "" {
        return true;
      } else if resource.Some? && resource.value != "" {
        endpoint := Some(OpenAIScheme + resource.value + OpenAIHostSuffix);
        return true;
      }
      return false;
    }
  }

  /** Constructing `_AzureOpenAISettings`: the field validators, then the model
      validator; `None` when any of them raises. */
  method LoadOpenAISettings(input: OpenAIInput, parseMultiColumns: ColumnParser)
    returns (r: Option<AzureOpenAISettings>)
    ensures r.Some? <==>
      input.model.Some? && Penalty(input.presencePenalty).Some? && Penalty(input.frequencyPenalty).Some? &&
      EnsuredEndpoint(input.endpoint, input.resource).Some?
    ensures r.Some? ==>
      fresh(r.value) && r.value.Valid() &&
      r.value.model == input.model.value &&
      r.value.resource == input.resource &&
      r.value.endpoint == EnsuredEndpoint(input.endpoint, input.resource) &&
      r.value.stopSequence == (if input.stopSequence.None? then None
                               else SplitContexts(input.stopSequence.value, parseMultiColumns)) &&
      r.value.presencePenalty == Penalty(input.presencePenalty).value &&
      r.value.frequencyPenalty == Penalty(input.frequencyPenalty).value
  {
    var presence := Penalty(input.presencePenalty);
    var frequency := Penalty(input.frequencyPenalty);
    if input.model.None? || presence.None? || frequency.None? {
      return None;
    }
    var stop := if input.stopSequence.None? then None else SplitContexts(input.stopSequence.value, parseMultiColumns);
    var settings := new AzureOpenAISettings(input.model.value, input.resource, input.endpoint, stop,
                                            presence.value, frequency.value);
    var ok := settings.EnsureEndpoint();
    if !ok {
      return None;
    }
    r := Some(settings);
  }

  // ---------------------------------------------------------------------------
  // The search endpoint
  // ---------------------------------------------------------------------------

  const DefaultEndpointSuffix := "search.windows.net"

  /** The endpoint of a search service. */
  function SearchEndpoint(service: string, endpointSuffix: string): string {
    "https://" + service + "." + endpointSuffix
  }

  /** The index of the first `c` in `s`, if any. */
  function FirstIndexOf(s: string, c: char): (r: Option<nat>)
    ensures r.Some? ==> r.value < |s| && s[r.value] == c && c !in s[..r.value]
    ensures r.None? ==> c !in s
  {
    if s == [] then None
    else if s[0] == c then Some(0)
    else
      match FirstIndexOf(s[1..], c)
      case None => None
      case Some(k) =>
        assert s[..k + 1] == [s[0]] + s[1..][..k];
        Some(k + 1)
  }

  /** The service name and suffix of a search endpoint: the host up to its
      first dot, and the rest. */
  function SplitSearchEndpoint(url: string): (r: Option<(string, string)>)
    ensures r.Some? ==> SearchEndpoint(r.value.0, r.value.1) == url && '.' !in r.value.0
  {
    if |url| >= 8 && url[..8] == "https://" then
      var host := url[8..];
      match FirstIndexOf(host, '.')
      case None => None
      case Some(k) =>
        assert url == url[..8] + host;
        assert host == host[..k] + "." + host[k + 1..];
        Some((host[..k], host[k + 1..]))
    else None
  }

  /** A service name without dots is read back from its endpoint, together
      with the suffix. */
  lemma SearchEndpointRoundTrip(service: string, endpointSuffix: string)
    requires '.' !in service
    ensures SplitSearchEndpoint(SearchEndpoint(service, endpointSuffix)) == Some((service, endpointSuffix))
  {
    var url := SearchEndpoint(service, endpointSuffix);
    assert url[..8] == "https://";
    var host := url[8..];
    assert host == service + "." + endpointSuffix;
    assert host[|service|] == '.';
    assert host[..|service|] == service;
    FirstDotAfterService(service, endpointSuffix);
    assert host[|service| + 1..] == endpointSuffix;
  }

  /** The first dot of `service.suffix` is the one after a dot-free service. */
  lemma {:induction false} FirstDotAfterService(service: string, endpointSuffix: string)
    requires '.' !in service
    ensures FirstIndexOf(service + "." + endpointSuffix, '.') == Some(|service|)
  {
    if service != [] {
      assert (service + "." + endpointSuffix)[1..] == service[1..] + "." + endpointSuffix;
      FirstDotAfterService(service[1..], endpointSuffix);
    }
  }

  /** The search settings as the environment supplies them. */
  datatype SearchInput = SearchInput(
    topK: EnvValue<int>,
    service: Option<string>,
    endpointSuffix: Option<string>,
    index: Option<string>,
    templateIndex: Option<string>,
    useTextSearch: EnvValue<bool>,
    useVectorSearch: EnvValue<bool>,
    useSemanticSearch: EnvValue<bool>,
    useSemanticCaptions: EnvValue<bool>,
    endpoint: Option<string>)

  /** A field with a default: the parsed value or the default; `None` when the
      value does not parse. */
  function WithDefault<T>(v: EnvValue<T>, default: T): (r: Option<T>)
    ensures v.Unset? ==> r == Some(default)
    ensures v.Parsed? ==> r == Some(v.value)
    ensures v.Unparsable? ==> r.None?
  {
    match v
    case Unset => Some(default)
    case Parsed(x) => Some(x)
    case Unparsable => None
  }

  /** The search settings object; `set_endpoint` updates `endpoint` in place. */
  class AzureSearchSettings {
    var topK: int
    var service: string
    var endpointSuffix: string
    var index: string
    var templateIndex: string
    var useTextSearch: bool
    var useVectorSearch: bool
    var useSemanticSearch: bool
    var useSemanticCaptions: bool
    var endpoint: Option<string>

    /** The object once its fields are validated, before the model validator. */
    constructor (topK: int, service: string, endpointSuffix: string, index: string, templateIndex: string,
                 useTextSearch: bool, useVectorSearch: bool, useSemanticSearch: bool,
                 useSemanticCaptions: bool, endpoint: Option<string>)
      ensures this.topK == topK && this.service == service && this.endpointSuffix == endpointSuffix
      ensures this.index == index && this.templateIndex == templateIndex
      ensures this.useTextSearch == useTextSearch && this.useVectorSearch == useVectorSearch
      ensures this.useSemanticSearch == useSemanticSearch && this.useSemanticCaptions == useSemanticCaptions
      ensures this.endpoint == endpoint
    {
      this.topK := topK;
      this.service := service;
      this.endpointSuffix := endpointSuffix;
      this.index := index;
      this.templateIndex := templateIndex;
      this.useTextSearch := useTextSearch;
      this.useVectorSearch := useVectorSearch;
      this.useSemanticSearch := useSemanticSearch;
      this.useSemanticCaptions := useSemanticCaptions;
      this.endpoint := endpoint;
    }

    /** `set_endpoint`: the endpoint is always rebuilt from service and suffix,
        whatever was configured before. */
    method SetEndpoint()
      modifies this`endpoint
      ensures endpoint == Some(SearchEndpoint(service, endpointSuffix))
    {
      endpoint := Some("https://" + service + "." + endpointSuffix);
    }
  }

  /** Constructing `_AzureSearchSettings`: required service, index and template
      index; defaults top 5, text and vector search on, semantic search and
      captions off, suffix `search.windows.net`; `None` when validation fails. */
  method LoadSearchSettings(input: SearchInput) returns (r: Option<AzureSearchSettings>)
    ensures r.Some? <==>
      input.service.Some? && input.index.Some? && input.templateIndex.Some? &&
      !input.topK.Unparsable? && !input.useTextSearch.Unparsable? && !input.useVectorSearch.Unparsable? &&
      !input.useSemanticSearch.Unparsable? && !input.useSemanticCaptions.Unparsable?
    ensures r.Some? ==>
      var s := r.value;
      fresh(s) &&
      s.service == input.service.value &&
      s.index == input.index.value && s.templateIndex == input.templateIndex.value &&
      s.endpointSuffix == input.endpointSuffix.GetOr(DefaultEndpointSuffix) &&
      s.endpoint == Some(SearchEndpoint(s.service, s.endpointSuffix)) &&
      Some(s.topK) == WithDefault(input.topK, 5) &&
      Some(s.useTextSearch) == WithDefault(input.useTextSearch, true) &&
      Some(s.useVectorSearch) == WithDefault(input.useVectorSearch, true) &&
      Some(s.useSemanticSearch) == WithDefault(input.useSemanticSearch, false) &&
      Some(s.useSemanticCaptions) == WithDefault(input.useSemanticCaptions, false)
  {
    var topK := WithDefault(input.topK, 5);
    var useText := WithDefault(input.useTextSearch, true);
    var useVector := WithDefault(input.useVectorSearch, true);
    var useSemantic := WithDefault(input.useSemanticSearch, false);
    var useCaptions := WithDefault(input.useSemanticCaptions, false);
    if input.service.None? || input.index.None? || input.templateIndex.None? || topK.None? ||
       useText.None? || useVector.None? || useSemantic.None? || useCaptions.None? {
      return None;
    }
    var settings := new AzureSearchSettings(
      topK.value, input.service.value, input.endpointSuffix.GetOr(DefaultEndpointSuffix),
      input.index.value, input.templateIndex.value,
      useText.value, useVector.value, useSemantic.value, useCaptions.value, input.endpoint);
    settings.SetEndpoint();
    r := Some(settings);
  }

  // ---------------------------------------------------------------------------
  // Chat history settings
  // ---------------------------------------------------------------------------

  /** The chat-history settings once validated. */
  datatype ChatHistorySettings = ChatHistorySettings(
    database: string,
    account: string,
    accountKey: Option<string>,
    conversationsContainer: string,
    enableFeedback: bool)

  /** The chat-history settings as the environment supplies them. */
  datatype ChatHistoryInput = ChatHistoryInput(
    database: Option<string>,
    account: Option<string>,
    accountKey: Option<string>,
    conversationsContainer: Option<string>,
    enableFeedback: EnvValue<bool>)

  /** Constructing `_ChatHistorySettings`: `None` exactly when validation fails
      (a required field missing, or an unparseable feedback flag). */
  function LoadChatHistory(input: ChatHistoryInput): (r: Option<ChatHistorySettings>)
    ensures r.Some? <==>
      input.database.Some? && input.account.Some? && input.conversationsContainer.Some? &&
      !input.enableFeedback.Unparsable?
    ensures r.Some? ==>
      r.value.database == input.database.value && r.value.account == input.account.value &&
      r.value.accountKey == input.accountKey &&
      r.value.conversationsContainer == input.conversationsContainer.value &&
      Some(r.value.enableFeedback) == WithDefault(input.enableFeedback, false)
  {
    var feedback := WithDefault(input.enableFeedback, false);
    if input.database.None? || input.account.None? || input.conversationsContainer.None? || feedback.None? then
      None
    else
      Some(ChatHistorySettings(input.database.value, input.account.value, input.accountKey,
                               input.conversationsContainer.value, feedback.value))
  }

  /** The application settings; `set_chat_history_settings` fills `chatHistory`. */
  class AppSettings {
    var chatHistory: Option<ChatHistorySettings>

    constructor ()
      ensures chatHistory.None?
    {
      chatHistory := None;
    }

    /** `set_chat_history_settings`: the constructed settings, or `None` when
        their validation fails; the failure is not propagated. */
    method SetChatHistorySettings(input: ChatHistoryInput)
      modifies this`chatHistory
      ensures chatHistory == LoadChatHistory(input)
    {
      chatHistory := LoadChatHistory(input);
    }
  }
}

=== FILE: wrappers.dfy ===
/** Small failure-carrying datatypes shared by every module of the model. */
module Wrappers {

  datatype Option<+T> = None | Some(value: T) {
    function GetOr(default: T): T {
      match this
      case Some(v) => v
      case None => default
    }
  }

  datatype Result<+R, +E> = Ok(value: R) | Err(error: E)

  /** A Python keyword argument read with `kwargs.get(key, default)`: either the
      caller left it out, or passed a value. */
  datatype Keyword<+T> = Omitted | Passed(value: T) {
    function Get(default: T): (r: T)
      ensures Omitted? ==> r == default
      ensures Passed? ==> r == value
    {
      match this
      case Omitted => default
      case Passed(v) => v
    }
  }
}
